=== FILE: README.md ===
# FitnessPlanner plan pipeline in Dafny

FitnessPlanner is a small web service. A user posts a profile: body data, activity level, goal,
diet and workout preferences. The service builds a long prompt from it and asks a language-model
provider (Gemini, Anthropic or Groq) for a fitness plan as JSON. It then validates the reply
against the plan schema and answers with a `PlanResponse`. When the provider call fails, or its
reply does not decode to a truthy JSON value, the answer is a fixed fallback plan built from four
profile fields. A reply that decodes to a truthy value but fails the plan schema, or is not a
mapping at all, is answered with HTTP 500.

This project models that pipeline as pure functions and proves what it promises:

- `Strings`: Python's `find`, `rfind`, slicing and `str()` of an integer. It also joins lines the
  way a multi-line f-string does.
- `Json`: the values `json.loads` produces, and their Python truthiness.
- `Extraction`: `_extract_json`. It decodes the span from the first `{` through the last `}`, or
  the whole text when a brace is missing.
- `Providers`: the Gemini and Anthropic adapters (`__init__`, `generate_plan`), and the
  module-level lazily filled instance each dependency getter keeps.
- `UserModel`: the `UserProfile` and `PlanRequest` schemas, with their literal vocabularies,
  numeric ranges, defaults and the validator that builds a profile from a decoded body.
- `PlanModel`: the plan schema (`MealPlan`, `Exercise`, `WorkoutDay`, `WorkoutPlan`,
  `FitnessPlan`, `PlanResponse`). It has a validator and an encoder, and the proofs relate them.
- `Prompts`: the fitness-plan prompt and the validation prompt.
- `Fallback`: `create_fallback_response`.
- `Routes`: the three plan endpoints, from dependency resolution to the reply.

Python's `json.loads`, `str()` of a float and `str.lower()` are parameters (`parse`, `showFloat`,
`lower`). So are the vendor SDK call (`call`) and the configuration (`Config`). The Groq
adapter's construction and its answer are inputs of the `Routes.World`, because
`llm_models/groq.py` is not part of this model.

The model follows the code as written, including:

- The extractor never retries the whole text after the brace slice fails to decode
  (`Extraction.NoWholeTextRetry`).
- A truthy provider result that fails `FitnessPlan(**result)` becomes an HTTP 500, not the
  fallback (`Routes.TruthyIsValidatedOr500`, `Routes.InvalidReplyIs500`).
- A truthy result that is not a mapping makes `FitnessPlan(**result)` raise `TypeError`, so the
  answer is a 500 (`Routes.NotAMapping`).
- An empty mapping `{}` is falsy and gets the fallback (`Routes.EmptyObjectGetsFallback`).
- `PlanRequest.ai_provider` is validated but never read: the endpoint path picks the provider
  (`Routes.AiProviderIgnored`).
- Anthropic's `_extract_json` is token for token the Gemini one, so both adapters share
  `Extraction.ExtractJson`.

## Model

| member | source | states |
|---|---|---|
| Strings.Find | llm_models/gemini.py:43 | `text.find('{')`: -1 exactly when the character is absent; otherwise the index of its first occurrence |
| Strings.RFind | llm_models/gemini.py:44 | `text.rfind('}')`: -1 exactly when absent; otherwise the index of its last occurrence |
| Strings.Slice | llm_models/gemini.py:47 | `text[start:end]` has length `end - start`, or 0 when `end <= start`, and holds the characters from `start` |
| Strings.IntRoundTrip | templates/generate_plan.py:10 | an integer rendered by an f-string reads back as the same integer |
| Strings.IntToDecimalInjective | templates/generate_plan.py:26 | different integers render as different text |
| Strings.RenderedIntNotNone | api/routes.py:98 | a session length rendered by the f-string never reads "None" |
| Strings.ShowOptIntInjective | api/routes.py:98 | an optional session length renders without loss: an absent value and each number render differently |
| Extraction.ExtractJson | llm_models/gemini.py:39-55 | a text missing `{` or `}` is decoded whole |
| Extraction.SliceIsParsed | llm_models/gemini.py:43-48 | with both braces present, the one string decoded is the span from the first `{` through the last `}`, or "" when the last `}` precedes the first `{` |
| Extraction.NoWholeTextRetry | llm_models/gemini.py:46-55 | when the brace slice fails to decode, the result is `None`, even if the whole text would decode |
| Extraction.InvertedBracesFail | llm_models/gemini.py:46-48 | a `}` only before the first `{` gives an empty slice, which never decodes |
| Extraction.NoBracesNoObject | llm_models/gemini.py:51 | a text without both braces never yields an object |
| Extraction.ExtractRoundTrip | llm_models/anthropic.py:41-55 | an object serialisation wrapped in prose with no `{` before it and no `}` after it is decoded exactly |
| Providers.NewGemini | llm_models/gemini.py:10-15 | construction succeeds exactly when a Google key is set; it carries that key and model "gemini-pro"; otherwise it fails with the missing-key message |
| Providers.NewAnthropic | llm_models/anthropic.py:10-21 | construction succeeds exactly when an Anthropic key is set; it carries that key and the model "claude-3-opus-20240229" its calls name; otherwise it fails with the missing-key message |
| Providers.GeneratePlan | llm_models/gemini.py:17-37 | a failed SDK call gives `None`; a reply goes through the extractor |
| Providers.BracelessReplyParsedWhole | llm_models/anthropic.py:16-51 | a reply missing a brace reaches the caller as `json.loads` reads the whole reply |
| Providers.GenerateUnwrapsProse | llm_models/anthropic.py:16-49 | an object the model wraps in prose reaches the caller exactly as `json.loads` reads it |
| Providers.GetModel | api/routes.py:19-27 | a stored instance is reused; otherwise construction is tried; success is stored; failure is a 500 "<Name> model not available" and the slot stays empty |
| Providers.StoredInstanceReused | api/routes.py:29-37 | once an instance is stored, every later call returns it |
| Providers.GetterMemoises | api/routes.py:39-47 | every call before the first successful construction fails with the 500, and that first instance is returned from then on |
| Providers.AllFail | api/routes.py:19-27 | without a successful construction, every call fails with the 500 |
| Providers.GeminiGetterStable | api/routes.py:19-27 | with a fixed configuration the getter fails on every call exactly when no key is set; otherwise every call returns the same instance |
| UserModel.ParseGender | models/user_model.py:7 | accepts exactly the three literals, inverse to the label |
| UserModel.ParseActivity | models/user_model.py:12-18 | accepts exactly the five activity literals, inverse to the label |
| UserModel.ParseProvider | models/user_model.py:78 | accepts exactly "gemini", "anthropic" and "groq" |
| UserModel.IntField | models/user_model.py:6 | a required `int` field succeeds exactly when present, an integer and within its inclusive bounds; a missing one is reported as missing |
| UserModel.RealField | models/user_model.py:8-9 | a required `float` field accepts an integer or a float within its inclusive bounds |
| UserModel.OptRealField | models/user_model.py:29 | `goal_weight`: absent or `null` gives `None`; a present number must be in range |
| UserModel.OptIntField | models/user_model.py:74 | `time_per_session`: absent gives the default 60; `null` gives `None`; a present integer must be in range |
| UserModel.OptTextField | models/user_model.py:49-51 | an optional text field: absent gives its default, `null` gives `None`, any other non-string is rejected |
| UserModel.ChoiceField | models/user_model.py:55 | a `Literal` field succeeds exactly when it is a string its parser accepts |
| UserModel.ValidateProfile | models/user_model.py:4-74 | an accepted profile satisfies every range, and its age and workout days are the integers sent |
| UserModel.ValidateRequest | models/user_model.py:76-78 | the profile is validated under `user_profile`; `ai_provider` defaults to "gemini", and a present one is one of the three labels |
| UserModel.RequestAcceptance | models/user_model.py:76-78 | a request is accepted exactly when it is a mapping whose `user_profile` is an accepted profile and whose `ai_provider` is absent or one of the three labels |
| UserModel.RequestDefaultsToGemini | models/user_model.py:76-78 | a request carrying only an accepted profile is accepted with the default provider "gemini" |
| UserModel.LabelsRoundTrip | models/user_model.py:7-71 | every literal of every vocabulary parses back to the value it labels |
| UserModel.ProfileRoundTrip | models/user_model.py:4-74 | every in-range profile sent with all its fields is accepted back unchanged; extra keys are ignored |
| UserModel.ProfileDefaults | models/user_model.py:29-74 | a body with only the required fields gets no target weight, "N/A" for the three health texts, "Basic gym equipment" and 60 minutes |
| UserModel.ProfileAcceptance | models/user_model.py:4-74 | the validator accepts a body exactly when every required field is present, typed and in range or listed, and every optional field is absent, `null` or well typed and in range |
| PlanModel.ValidateResponse | models/plan_model.py:48-52 | `PlanResponse(**m)`: a missing `status` is reported; an accepted response carries the `status` string sent, and each absent optional field is `None` |
| PlanModel.StatusOnlyResponse | models/plan_model.py:48-52 | a document holding only `status` is accepted as `PlanResponse(status=s)`, every other field `None` |
| PlanModel.ResponseRoundTrip | models/plan_model.py:48-52 | every response envelope, plan included, is accepted back from its own encoding unchanged |
| PlanModel.ValidatePlan | models/plan_model.py:42-46 | a missing `meal_plan` or `workout_plan` is reported; an accepted plan's sub-plans are the validated ones, and absent optional fields default to `[]` and `{}` |
| PlanModel.ValidateMacros | models/plan_model.py:4-8 | `MacronutrientBreakdown(**m)`: a missing `protein` is reported; an accepted breakdown carries the `protein`, `carbohydrates` and `fats` strings sent, and an absent `fiber` is `None` |
| PlanModel.ValidateMealPlan | models/plan_model.py:10-17 | `MealPlan(**m)`: a missing `goal` is reported; an accepted meal plan carries the `goal`, `calorie_target` and `meal_frequency` strings sent and the keys of `sample_meals`, requires `macronutrient_breakdown`, and an absent `nutrition_tips` or `supplements` is `[]` |
| PlanModel.ValidateExercise | models/plan_model.py:19-24 | `Exercise(**m)`: a missing `name` is reported; an accepted exercise carries the `name`, `sets` and `reps` strings sent, and an absent `rest` or `notes` is `None` |
| PlanModel.ValidateWorkoutDay | models/plan_model.py:26-32 | `WorkoutDay(**m)`: a missing `day_name` is reported; an accepted day carries the `day_name` and `focus` strings sent and one exercise per list item, an absent `duration` is `None`, and an absent `warm_up` or `cool_down` is `[]` |
| PlanModel.ValidateWorkoutPlan | models/plan_model.py:34-40 | `WorkoutPlan(**m)`: a missing `goal` is reported; an accepted plan carries the `goal`, `frequency` and `split` strings sent and one day per `weekly_schedule` item, and an absent `progression_notes` or `safety_tips` is `[]` |
| PlanModel.MacrosRoundTrip | models/plan_model.py:4-8 | a macronutrient breakdown is accepted back from its encoding |
| PlanModel.MealPlanRoundTrip | models/plan_model.py:10-17 | a meal plan is accepted back from its encoding |
| PlanModel.ExerciseRoundTrip | models/plan_model.py:19-24 | an exercise is accepted back from its encoding |
| PlanModel.WorkoutDayRoundTrip | models/plan_model.py:26-32 | a workout day is accepted back from its encoding |
| PlanModel.WorkoutPlanRoundTrip | models/plan_model.py:34-40 | a workout plan is accepted back from its encoding |
| PlanModel.PlanRoundTrip | models/plan_model.py:42-46 | every plan is accepted back from its own encoding, unchanged |
| PlanModel.PlanDefaults | models/plan_model.py:45-46 | a document with only the two required keys is accepted, with `[]` recommendations and `{}` tracking |
| PlanModel.MacrosAcceptance | models/plan_model.py:4-8 | the breakdown validator accepts exactly the documents of the declared shape |
| PlanModel.MealPlanAcceptance | models/plan_model.py:10-17 | the meal-plan validator accepts exactly the documents of the declared shape |
| PlanModel.ExerciseAcceptance | models/plan_model.py:19-24 | the exercise validator accepts exactly the documents of the declared shape |
| PlanModel.WorkoutDayAcceptance | models/plan_model.py:26-32 | the workout-day validator accepts exactly the documents of the declared shape |
| PlanModel.WorkoutPlanAcceptance | models/plan_model.py:34-40 | the workout-plan validator accepts exactly the documents of the declared shape |
| PlanModel.PlanAcceptance | models/plan_model.py:42-46 | `FitnessPlan(**m)` succeeds exactly when both sub-plans are well formed and every optional field is absent, `null` or well typed |
| Prompts.FitnessPrompt | templates/generate_plan.py:5-7 | the prompt opens with a newline |
| Prompts.ProfileLineShown | templates/generate_plan.py:9-31 | every profile line appears in the prompt as a whole line |
| Prompts.ProfileLinesInOrder | templates/generate_plan.py:9-31 | profile lines appear in template order, without overlapping |
| Prompts.EveryFieldShown | templates/generate_plan.py:10-31 | each of the eighteen profile fields has its labelled line in the prompt |
| Prompts.FieldsInTemplateOrder | templates/generate_plan.py:10-31 | the eighteen field lines come in the template's order |
| Prompts.WorkoutDaysShown | templates/generate_plan.py:26 | the prompt states the workout days in decimal, followed by "days per week" |
| Prompts.TargetWeightAlwaysShown | templates/generate_plan.py:16 | the target-weight line is always emitted, reading "None" without a goal weight |
| Prompts.SchemaKeyLines | templates/generate_plan.py:53-103 | the example schema is one single-braced object naming the four top-level plan keys |
| Prompts.SchemaKeysShown | templates/generate_plan.py:53-103 | the schema's braces and top-level keys appear in the prompt as whole lines |
| Prompts.SchemaKeysInOrder | templates/generate_plan.py:53-103 | those lines come in schema order: meal plan, workout plan, recommendations, tracking |
| Prompts.HeaderEndsWithMarker | templates/generate_plan.py:110-117 | the text before the plan ends with "Plan to validate:" and a newline |
| Prompts.ValidatePrompt | templates/generate_plan.py:108-121 | the plan text appears verbatim on the line after "Plan to validate:" |
| Prompts.PlanTextRecovered | templates/generate_plan.py:117-118 | the plan text reads back from the validation prompt |
| Prompts.ValidatePromptInjective | templates/generate_plan.py:108-121 | different plan texts give different validation prompts |
| Fallback.MealDocAccepted | api/routes.py:52-73 | the fallback `meal_plan` dict validates to the fallback meal plan |
| Fallback.WorkoutDocAccepted | api/routes.py:74-111 | the fallback `workout_plan` dict validates to the fallback workout plan |
| Fallback.PlanDocAccepted | api/routes.py:49-122 | the whole fallback document validates to the typed fallback plan |
| Fallback.FallbackAccepted | api/routes.py:49-122 | `create_fallback_response` (`Fallback.CreateFallback`) never raises, and it yields `FallbackPlan` |
| Fallback.FallbackDependsOnFourFields | api/routes.py:53-98 | profiles that agree on goal, workout days, split and session length get the same fallback |
| Fallback.FrequencyReadsBack | api/routes.py:76 | the frequency text ends in " days per week", and its prefix reads back as the day count |
| Fallback.DurationReadsBack | api/routes.py:98 | the duration text ends in " minutes", reads "None minutes" without a session length, and its prefix otherwise reads back as the minutes |
| Fallback.PlanOfContent | api/routes.py:51-122 | the fallback plan embeds the goal, frequency and split, with a one-day schedule carrying the duration |
| Fallback.FallbackContent | api/routes.py:49-122 | the fallback plan carries the lower-cased goal, "N days per week" and the profile's split |
| Routes.Decide | api/routes.py:130-147 | a 500 is the only error status; every answer is status "200" with data and no error |
| Routes.FalsyGetsFallback | api/routes.py:136-143 | a falsy result is answered with the fallback message and the fallback plan |
| Routes.FallbackIffFalsy | api/routes.py:130-143 | the fallback message is used exactly when the result was falsy |
| Routes.TruthyIsValidatedOr500 | api/routes.py:130-147 | a truthy result is answered only if it validates, with the endpoint's success message; otherwise the answer is 500 |
| Routes.EmptyObjectGetsFallback | api/routes.py:130 | `{}` is falsy and gets the fallback |
| Routes.ValidDocumentAnswered | api/routes.py:155-160 | a document the schema accepts is answered with exactly the validated plan |
| Routes.Handle | api/routes.py:19-47 | a model-unavailable 500 happens only with an empty slot and a failed construction; a filled slot is kept |
| Routes.AiProviderIgnored | api/routes.py:124-127 | the request's `ai_provider` does not affect the reply |
| Routes.GeminiConstructed | api/routes.py:124-128 | with a key and an empty slot, the adapter is constructed, stored and asked |
| Routes.MissingKeyIs500 | api/routes.py:19-27 | without a key, the Gemini endpoint answers 500 "Gemini model not available" and the slot stays empty |
| Routes.CallFailureFallsBack | api/routes.py:124-143 | when the SDK call fails, the Gemini endpoint answers "200" with the fallback plan, and the adapter is stored |
| Routes.CallFailureServesFallback | api/routes.py:124-143 | end to end through the `generate_plan_*` handler (`Routes.Serve`): when the SDK call fails, the answer is the fallback plan built from the request's profile |
| Routes.InvalidReplyIs500 | api/routes.py:128-147 | for a `json.loads`-like parser, a reply wrapping a braced serialisation of a non-empty document the schema rejects is a 500, even though the fallback exists |

## Left out

- I/O and logging are not modelled: the `logger` calls, FastAPI's request parsing and its 422
  answer for an invalid body, CORS, `async`, and the health endpoint (`api/routes.py:197-199`).
- `main.py`, the Streamlit front ends and `src/` are not part of this model. The configuration
  module `config/env_config.py` is the `Config` parameter.
- `llm_models/groq.py` is not part of this model. Its construction outcome and its answer are
  inputs of `Routes.World`.
- The vendor SDK call (`generate_content`, `messages.create`), `json.loads`, `str()` of a float
  and `str.lower()` are parameters. Nothing is assumed about them beyond `Extraction.LoadsLike`.
- `validate_plan_prompt` is modelled. Nothing in the routes calls it.
- UserModel.ValidateProfile: reports only the first failing field, in declaration order, where
  pydantic collects every error. Lax coercions are not modelled: a numeric string for an `int`
  or `float` field, a boolean for an `int` or `float` field, and a float with no fractional part
  for an `int` field (`"age": 25.0`, `"time_per_session": 60.0`) are rejected here.
- PlanModel.ValidatePlan: same simplification as above. Only the first error is reported, and
  only exact JSON types are accepted for `str`, `list` and `dict` fields.
- PlanModel.ValidateResponse: an error inside the nested `data` plan carries the plan's own
  path, without the leading `data` key.
- Routes.Decide: the 500 detail `str(e)` is modelled as a `Cause` value, not as text.
- Routes.Handle: states only the model-unavailable path and slot preservation. The reply itself
  is stated by the end-to-end lemmas for the Gemini endpoint. The Anthropic endpoint differs
  only in its constructor and success message, and the Groq endpoint only in its inputs.
- A failure inside `create_fallback_response` would also become a 500. `Fallback.FallbackAccepted`
  proves it never fails.

=== FILE: extraction.dfy ===
/** The brace-slicing JSON extractor `_extract_json`, shared token for token by the Gemini and
    the Anthropic adapters. `json.loads` is the parameter `parse`: `None` stands for a
    `JSONDecodeError`. */
module Extraction {
  import opened Wrappers
  import opened Json
  import opened Strings

  /** What the model relies on about `json.loads`: the empty string is not a JSON document, and
      a document that decodes to an object contains an opening and a closing brace. */
  ghost predicate LoadsLike(parse: string -> Option<Json>) {
    && parse("") == None
    && forall s :: parse(s).Some? && parse(s).value.JObj? ==> '{' in s && '}' in s
  }

  /** `_extract_json(text)`: if the text holds a `{` and a `}`, decode exactly the slice from the
      first `{` through the last `}`; otherwise decode the whole text. A failed decode gives
      `None`, with no second attempt. */
  function ExtractJson(parse: string -> Option<Json>, text: string): (r: Option<Json>)
    ensures '{' !in text || '}' !in text ==> r == parse(text)
  {
    var start := Find(text, '{');
    var end := RFind(text, '}') + 1;
    if start != -1 && end != 0 then parse(Slice(text, start, end)) else parse(text)
  }

  /** `i` is the first `{` of `text`. */
  predicate FirstOpen(text: string, i: int) {
    0 <= i < |text| && text[i] == '{' && '{' !in text[..i]
  }

  /** `j` is the last `}` of `text`. */
  predicate LastClose(text: string, j: int) {
    0 <= j < |text| && text[j] == '}' && '}' !in text[j + 1..]
  }

  lemma FindIsFirstOpen(text: string, i: int)
    requires FirstOpen(text, i)
    ensures Find(text, '{') == i
  {
  }

  lemma RFindIsLastClose(text: string, j: int)
    requires LastClose(text, j)
    ensures RFind(text, '}') == j
  {
  }

  /** With both braces present, the one string decoded is the span from the first `{` through
      the last `}`, or the empty string when the last `}` comes before the first `{`. */
  lemma {:induction false} SliceIsParsed(parse: string -> Option<Json>, text: string, i: int, j: int)
    requires FirstOpen(text, i) && LastClose(text, j)
    ensures ExtractJson(parse, text) == parse(if i <= j then text[i..j + 1] else "")
  {
    FindIsFirstOpen(text, i);
    RFindIsLastClose(text, j);
  }

  /** A failed decode of the slice is final: the whole text is not tried, even when it would
      decode. */
  lemma {:induction false} NoWholeTextRetry(parse: string -> Option<Json>, text: string, i: int, j: int)
    requires FirstOpen(text, i) && LastClose(text, j) && i <= j
    requires parse(text[i..j + 1]).None?
    ensures ExtractJson(parse, text).None?
  {
    SliceIsParsed(parse, text, i, j);
  }

  /** A `}` only before the first `{` gives an empty slice, which never decodes. */
  lemma {:induction false} InvertedBracesFail(parse: string -> Option<Json>, text: string, i: int, j: int)
    requires LoadsLike(parse)
    requires FirstOpen(text, i) && LastClose(text, j) && j < i
    ensures ExtractJson(parse, text).None?
  {
    SliceIsParsed(parse, text, i, j);
  }

  /** A text without both braces never yields an object. */
  lemma NoBracesNoObject(parse: string -> Option<Json>, text: string)
    requires LoadsLike(parse)
    requires '{' !in text || '}' !in text
    ensures ExtractJson(parse, text).Some? ==> !ExtractJson(parse, text).value.JObj?
  {
  }

  /** Round trip: an object serialisation `s` wrapped in prose that has no `{` before it and no
      `}` after it is extracted as exactly `parse(s)`. */
  lemma {:induction false} ExtractRoundTrip(parse: string -> Option<Json>, prefix: string, s: string, suffix: string)
    requires 2 <= |s| && s[0] == '{' && s[|s| - 1] == '}'
    requires '{' !in prefix && '}' !in suffix
    ensures ExtractJson(parse, prefix + s + suffix) == parse(s)
  {
    var text := prefix + s + suffix;
    var i := |prefix|;
    var j := |prefix| + |s| - 1;
    assert text[..i] == prefix;
    assert text[j + 1..] == suffix;
    assert text[i..j + 1] == s;
    SliceIsParsed(parse, text, i, j);
  }
}

=== FILE: fallback.dfy ===
/** `create_fallback_response`: the fixed plan the routes answer with when the provider returns
    nothing usable. Like the source, the plan is written as a JSON-shaped document and then run
    through the `FitnessPlan` validator. Python's `str.lower()` is the parameter `lower`. */
module Fallback {
  import opened Wrappers
  import opened Json
  import opened Strings
  import opened UserModel
  import opened PlanModel

  const SampleMeals: map<string, seq<string>> := map[
    "breakfast" := ["Oatmeal with protein powder and berries", "Greek yogurt with nuts and honey"],
    "lunch" := ["Grilled chicken with quinoa and vegetables", "Salmon salad with mixed greens"],
    "dinner" := ["Lean beef with sweet potato and broccoli", "Tofu stir-fry with brown rice"],
    "snacks" := ["Apple with almond butter", "Protein shake with banana"]]

  const NutritionTips: seq<string> := [
    "Stay hydrated with 8-10 glasses of water daily",
    "Eat protein with every meal",
    "Include colorful vegetables for micronutrients"]

  const Supplements: seq<string> := ["Whey protein", "Multivitamin", "Omega-3"]

  const PushUps := Exercise("Push-ups", "3", "8-12", Some("60 seconds"), Some("Modify on knees if needed"))
  const Squats := Exercise("Squats", "3", "12-15", Some("60 seconds"), Some("Focus on proper form"))

  const WarmUp: seq<string> := ["5 minutes light cardio", "Dynamic stretching"]
  const CoolDown: seq<string> := ["5 minutes walking", "Static stretching"]

  const ProgressionNotes: seq<string> := [
    "Increase weight/reps when you can complete all sets easily",
    "Track your workouts for consistent progress"]

  const SafetyTips: seq<string> := [
    "Always warm up before exercising",
    "Stop if you feel pain or discomfort"]

  const GeneralRecommendations: seq<string> := [
    "Get 7-9 hours of quality sleep",
    "Manage stress through relaxation techniques",
    "Be consistent with your routine"]

  const ProgressTracking: map<string, string> := map[
    "weight" := "Weekly weigh-ins at the same time",
    "measurements" := "Monthly body measurements",
    "performance" := "Track weights, reps, and workout duration"]

  /** `f"{user_profile.time_per_session} minutes"`. */
  function DurationText(minutes: Option<int>): string {
    ShowOpt(minutes, IntToDecimal) + " minutes"
  }

  /** `f"{user_profile.workout_days} days per week"`. */
  function FrequencyText(days: int): string {
    IntToDecimal(days) + " days per week"
  }

  // ---------------------------------------------------------------------------------------
  // The document the source builds.

  /** The `meal_plan` dict, around the lower-cased goal. It has no `fiber` key in its
      macronutrients. */
  function MealDoc(goal: string): Json {
    JObj(map[
      "goal" := JStr("Support " + goal + " goals"),
      "calorie_target" := JStr("Calculate based on BMR and activity level"),
      "macronutrient_breakdown" := JObj(map[
        "protein" := JStr("25-30%"),
        "carbohydrates" := JStr("40-50%"),
        "fats" := JStr("25-30%")]),
      "meal_frequency" := JStr("3 main meals + 2 snacks"),
      "sample_meals" := JObj(map k | k in SampleMeals :: StrListJson(SampleMeals[k])),
      "nutrition_tips" := StrListJson(NutritionTips),
      "supplements" := StrListJson(Supplements)])
  }

  /** The single `weekly_schedule` entry, around the rendered session duration. */
  function DayDoc(duration: string): Json {
    JObj(map[
      "day_name" := JStr("Day 1"),
      "focus" := JStr("Upper Body"),
      "exercises" := JArr([EncodeExercise(PushUps), EncodeExercise(Squats)]),
      "duration" := JStr(duration),
      "warm_up" := StrListJson(WarmUp),
      "cool_down" := StrListJson(CoolDown)])
  }

  /** The `workout_plan` dict, around the four texts taken from the profile. */
  function WorkoutDoc(goal: string, frequency: string, split: string, duration: string): Json {
    JObj(map[
      "goal" := JStr("Support " + goal + " through structured training"),
      "frequency" := JStr(frequency),
      "split" := JStr(split),
      "weekly_schedule" := JArr([DayDoc(duration)]),
      "progression_notes" := StrListJson(ProgressionNotes),
      "safety_tips" := StrListJson(SafetyTips)])
  }

  /** The whole keyword-argument set, around the four texts taken from the profile. */
  function PlanDoc(goal: string, frequency: string, split: string, duration: string): map<string, Json> {
    map[
      "meal_plan" := MealDoc(goal),
      "workout_plan" := WorkoutDoc(goal, frequency, split, duration),
      "general_recommendations" := StrListJson(GeneralRecommendations),
      "progress_tracking" := JObj(map k | k in ProgressTracking :: JStr(ProgressTracking[k]))]
  }

  function FallbackDocument(p: UserProfile, lower: string -> string): map<string, Json> {
    PlanDoc(lower(GoalLabel(p.goal)), FrequencyText(p.workoutDays), SplitLabel(p.workoutSplit), DurationText(p.timePerSession))
  }

  /** `create_fallback_response(user_profile)`: `FitnessPlan(**document)`. */
  function CreateFallback(p: UserProfile, lower: string -> string): Result<FitnessPlan, SchemaError> {
    ValidatePlan(FallbackDocument(p, lower))
  }

  // ---------------------------------------------------------------------------------------
  // The plan the document stands for, written as typed values.

  function FallbackMeal(goal: string): MealPlan {
    MealPlan("Support " + goal + " goals", "Calculate based on BMR and activity level",
             MacronutrientBreakdown("25-30%", "40-50%", "25-30%", None),
             "3 main meals + 2 snacks", SampleMeals, Some(NutritionTips), Some(Supplements))
  }

  function FallbackDay(duration: string): WorkoutDay {
    WorkoutDay("Day 1", "Upper Body", [PushUps, Squats], Some(duration), Some(WarmUp), Some(CoolDown))
  }

  function FallbackWorkout(goal: string, frequency: string, split: string, duration: string): WorkoutPlan {
    WorkoutPlan("Support " + goal + " through structured training", frequency, split,
                [FallbackDay(duration)], Some(ProgressionNotes), Some(SafetyTips))
  }

  function PlanOf(goal: string, frequency: string, split: string, duration: string): FitnessPlan {
    FitnessPlan(FallbackMeal(goal), FallbackWorkout(goal, frequency, split, duration),
                Some(GeneralRecommendations), Some(ProgressTracking))
  }

  function FallbackPlan(p: UserProfile, lower: string -> string): FitnessPlan {
    PlanOf(lower(GoalLabel(p.goal)), FrequencyText(p.workoutDays), SplitLabel(p.workoutSplit), DurationText(p.timePerSession))
  }

  // ---------------------------------------------------------------------------------------
  // The document passes validation and yields exactly that plan.

  /** The entries of the `meal_plan` dict. */
  lemma MealDocFields(goal: string)
    ensures var m := MealDoc(goal).fields;
      && "goal" in m && m["goal"] == JStr("Support " + goal + " goals")
      && "calorie_target" in m && m["calorie_target"] == JStr("Calculate based on BMR and activity level")
      && "macronutrient_breakdown" in m
      && m["macronutrient_breakdown"] == JObj(map["protein" := JStr("25-30%"), "carbohydrates" := JStr("40-50%"), "fats" := JStr("25-30%")])
      && "meal_frequency" in m && m["meal_frequency"] == JStr("3 main meals + 2 snacks")
      && "sample_meals" in m && m["sample_meals"] == JObj(map k | k in SampleMeals :: StrListJson(SampleMeals[k]))
      && "nutrition_tips" in m && m["nutrition_tips"] == StrListJson(NutritionTips)
      && "supplements" in m && m["supplements"] == StrListJson(Supplements)
  {
  }

  lemma MealDocHead(goal: string, at: seq<Step>)
    ensures Required(MealDoc(goal).fields, "goal", at, AsStr) == Success(FallbackMeal(goal).goal)
    ensures Required(MealDoc(goal).fields, "calorie_target", at, AsStr) == Success(FallbackMeal(goal).calorieTarget)
    ensures Required(MealDoc(goal).fields, "macronutrient_breakdown", at, ValidateMacros)
         == Success(FallbackMeal(goal).macronutrientBreakdown)
    ensures Required(MealDoc(goal).fields, "meal_frequency", at, AsStr) == Success(FallbackMeal(goal).mealFrequency)
  {
    MealDocFields(goal);
  }

  lemma {:induction false} MealDocTail(goal: string, at: seq<Step>)
    ensures Required(MealDoc(goal).fields, "sample_meals", at, AsStrListMap) == Success(SampleMeals)
    ensures Optional(MealDoc(goal).fields, "nutrition_tips", at, AsStrList, Some([])) == Success(Some(NutritionTips))
    ensures Optional(MealDoc(goal).fields, "supplements", at, AsStrList, Some([])) == Success(Some(Supplements))
  {
    var m := MealDoc(goal).fields;
    MealDocFields(goal);
    StrListMapRoundTrip(SampleMeals, at + [Key("sample_meals")]);
    OptStrListRoundTrip(Some(NutritionTips), m, "nutrition_tips", at);
    OptStrListRoundTrip(Some(Supplements), m, "supplements", at);
  }

  lemma {:induction false} MealDocAccepted(goal: string)
    ensures ValidateMealPlan(MealDoc(goal), [Key("meal_plan")]) == Success(FallbackMeal(goal))
  {
    MealDocHead(goal, [Key("meal_plan")]);
    MealDocTail(goal, [Key("meal_plan")]);
  }


  lemma {:induction false} WorkoutDocAccepted(goal: string, frequency: string, split: string, duration: string)
    ensures ValidateWorkoutPlan(WorkoutDoc(goal, frequency, split, duration), [Key("workout_plan")])
         == Success(FallbackWorkout(goal, frequency, split, duration))
  {
    var x := FallbackWorkout(goal, frequency, split, duration);
    assert EncodeExercises([PushUps, Squats]).items == [EncodeExercise(PushUps), EncodeExercise(Squats)];
    assert DayDoc(duration) == EncodeWorkoutDay(FallbackDay(duration));
    assert EncodeSchedule(x.weeklySchedule).items == [DayDoc(duration)];
    assert WorkoutDoc(goal, frequency, split, duration) == EncodeWorkoutPlan(x);
    WorkoutPlanRoundTrip(x, [Key("workout_plan")]);
  }

  /** The entries of the keyword-argument set. */
  lemma PlanDocFields(goal: string, frequency: string, split: string, duration: string)
    ensures var m := PlanDoc(goal, frequency, split, duration);
      && "meal_plan" in m && m["meal_plan"] == MealDoc(goal)
      && "workout_plan" in m && m["workout_plan"] == WorkoutDoc(goal, frequency, split, duration)
      && "general_recommendations" in m && m["general_recommendations"] == StrListJson(GeneralRecommendations)
      && "progress_tracking" in m
      && m["progress_tracking"] == JObj(map k | k in ProgressTracking :: JStr(ProgressTracking[k]))
  {
  }

  lemma {:induction false} PlanDocMeal(goal: string, frequency: string, split: string, duration: string)
    ensures Required(PlanDoc(goal, frequency, split, duration), "meal_plan", [], ValidateMealPlan)
         == Success(FallbackMeal(goal))
  {
    PlanDocFields(goal, frequency, split, duration);
    MealDocAccepted(goal);
    assert [] + [Key("meal_plan")] == [Key("meal_plan")];
  }

  lemma {:induction false} PlanDocWorkout(goal: string, frequency: string, split: string, duration: string)
    ensures Required(PlanDoc(goal, frequency, split, duration), "workout_plan", [], ValidateWorkoutPlan)
         == Success(FallbackWorkout(goal, frequency, split, duration))
  {
    PlanDocFields(goal, frequency, split, duration);
    WorkoutDocAccepted(goal, frequency, split, duration);
    assert [] + [Key("workout_plan")] == [Key("workout_plan")];
  }


  lemma {:induction false} PlanDocAccepted(goal: string, frequency: string, split: string, duration: string)
    ensures ValidatePlan(PlanDoc(goal, frequency, split, duration)) == Success(PlanOf(goal, frequency, split, duration))
  {
    var m := PlanDoc(goal, frequency, split, duration);
    PlanDocFields(goal, frequency, split, duration);
    PlanDocMeal(goal, frequency, split, duration);
    PlanDocWorkout(goal, frequency, split, duration);
    OptStrListRoundTrip(Some(GeneralRecommendations), m, "general_recommendations", []);
    TrackingRoundTrip(Some(ProgressTracking), m);
    AssemblePlan(m, PlanOf(goal, frequency, split, duration));
  }


  /** The fallback document is accepted by the `FitnessPlan` validator, and the plan it yields is
      `FallbackPlan`. */
  lemma {:induction false} FallbackAccepted(p: UserProfile, lower: string -> string)
    ensures CreateFallback(p, lower) == Success(FallbackPlan(p, lower))
  {
    PlanDocAccepted(lower(GoalLabel(p.goal)), FrequencyText(p.workoutDays), SplitLabel(p.workoutSplit), DurationText(p.timePerSession));
  }

  // ---------------------------------------------------------------------------------------
  // What the fallback plan says about the profile.

  /** The fallback reads only four profile fields: profiles that agree on the goal, the workout
      days, the split and the session length get the same answer. */
  lemma FallbackDependsOnFourFields(p: UserProfile, q: UserProfile, lower: string -> string)
    requires p.goal == q.goal && p.workoutDays == q.workoutDays
    requires p.workoutSplit == q.workoutSplit && p.timePerSession == q.timePerSession
    ensures CreateFallback(p, lower) == CreateFallback(q, lower)
  {
  }

  /** The day count reads back from the frequency text. */
  lemma {:induction false} FrequencyReadsBack(days: int)
    ensures var f := FrequencyText(days);
      |f| > 14 && f[|f| - 14..] == " days per week" && f[..|f| - 14] == IntToDecimal(days)
      && ReadInt(f[..|f| - 14]) == days
  {
    var f := FrequencyText(days);
    assert f[..|f| - 14] == IntToDecimal(days);
    IntRoundTrip(days);
  }

  /** The session length reads back from the duration text; an absent one renders as "None". */
  lemma {:induction false} DurationReadsBack(minutes: Option<int>)
    ensures var d := DurationText(minutes);
      |d| > 8 && d[|d| - 8..] == " minutes"
      && (minutes.None? ==> d == "None minutes")
      && (minutes.Some? ==> d[..|d| - 8] == IntToDecimal(minutes.value) && ReadInt(d[..|d| - 8]) == minutes.value)
  {
    var d := DurationText(minutes);
    if minutes.Some? {
      assert d[..|d| - 8] == IntToDecimal(minutes.value);
      IntRoundTrip(minutes.value);
    }
  }

  /** The plan around given texts puts them where the source does: both goal texts embed the
      goal, the split label parses back to the split, and the schedule is one day of two
      exercises carrying the duration text. */
  lemma PlanOfContent(goal: string, frequency: string, split: WorkoutSplit, duration: string)
    ensures var x := PlanOf(goal, frequency, SplitLabel(split), duration);
      && x.mealPlan.goal == "Support " + goal + " goals"
      && x.workoutPlan.goal == "Support " + goal + " through structured training"
      && x.workoutPlan.frequency == frequency
      && ParseSplit(x.workoutPlan.split) == Some(split)
      && |x.workoutPlan.weeklySchedule| == 1
      && |x.workoutPlan.weeklySchedule[0].exercises| == 2
      && x.workoutPlan.weeklySchedule[0].duration == Some(duration)
  {
  }

  /** `create_fallback_response` always yields a valid plan, and that plan embeds the profile's
      lower-cased goal, its workout days, its split and its session length as described by
      `PlanOfContent`, `FrequencyReadsBack` and `DurationReadsBack`. */
  lemma {:induction false} FallbackContent(p: UserProfile, lower: string -> string)
    ensures CreateFallback(p, lower) == Success(FallbackPlan(p, lower))
    ensures FallbackPlan(p, lower).workoutPlan.frequency == IntToDecimal(p.workoutDays) + " days per week"
    ensures ParseSplit(FallbackPlan(p, lower).workoutPlan.split) == Some(p.workoutSplit)
  {
    FallbackAccepted(p, lower);
    PlanOfContent(lower(GoalLabel(p.goal)), FrequencyText(p.workoutDays), p.workoutSplit, DurationText(p.timePerSession));
  }
}

=== FILE: json.dfy ===
/** The values `json.loads` produces, as a small algebraic datatype. */
module Json {
  import opened Wrappers

  /** A decoded JSON value. Integers and floats are kept apart, as Python keeps `int` and
      `float` apart; an object is a Python dict, in which a repeated key keeps its last value. */
  datatype Json =
    | JNull
    | JBool(b: bool)
    | JInt(i: int)
    | JFloat(r: real)
    | JStr(s: string)
    | JArr(items: seq<Json>)
    | JObj(fields: map<string, Json>)

  /** Python truthiness of a decoded value: `None`, `False`, zero and empty containers are falsy. */
  predicate Truthy(j: Json) {
    match j
    case JNull => false
    case JBool(b) => b
    case JInt(i) => i != 0
    case JFloat(r) => r != 0.0
    case JStr(s) => |s| > 0
    case JArr(items) => |items| > 0
    case JObj(fields) => |fields| > 0
  }

  /** Truthiness of an optional result, where the absent result is Python's `None`. */
  predicate TruthyResult(r: Option<Json>) {
    r.Some? && Truthy(r.value)
  }

  /** How an `Optional[str]` value serialises: `None` as `null`. */
  function OptStrJson(s: Option<string>): Json {
    match s
    case None => JNull
    case Some(v) => JStr(v)
  }
}

=== FILE: plan_model.dfy ===
/** The plan schema of `models/plan_model.py`: typed records, the validator that turns a decoded
    dict into them (required fields, type checks, documented defaults), and the encoder back. */
module PlanModel {
  import opened Wrappers
  import opened Json

  /** One step of the location of a validation error: a dict key or a list position. */
  datatype Step = Key(name: string) | Index(i: nat)

  /** Why a document does not fit the schema, and where. */
  datatype SchemaError = Missing(path: seq<Step>) | WrongType(path: seq<Step>)

  datatype MacronutrientBreakdown = MacronutrientBreakdown(
    protein: string,
    carbohydrates: string,
    fats: string,
    fiber: Option<string>)

  datatype MealPlan = MealPlan(
    goal: string,
    calorieTarget: string,
    macronutrientBreakdown: MacronutrientBreakdown,
    mealFrequency: string,
    sampleMeals: map<string, seq<string>>,
    nutritionTips: Option<seq<string>>,
    supplements: Option<seq<string>>)

  datatype Exercise = Exercise(
    name: string,
    sets: string,
    reps: string,
    rest: Option<string>,
    notes: Option<string>)

  datatype WorkoutDay = WorkoutDay(
    dayName: string,
    focus: string,
    exercises: seq<Exercise>,
    duration: Option<string>,
    warmUp: Option<seq<string>>,
    coolDown: Option<seq<string>>)

  datatype WorkoutPlan = WorkoutPlan(
    goal: string,
    frequency: string,
    split: string,
    weeklySchedule: seq<WorkoutDay>,
    progressionNotes: Option<seq<string>>,
    safetyTips: Option<seq<string>>)

  datatype FitnessPlan = FitnessPlan(
    mealPlan: MealPlan,
    workoutPlan: WorkoutPlan,
    generalRecommendations: Option<seq<string>>,
    progressTracking: Option<map<string, string>>)

  /** The envelope every plan endpoint returns. */
  datatype PlanResponse = PlanResponse(
    status: string,
    message: Option<string>,
    data: Option<FitnessPlan>,
    error: Option<string>)

  /** `PlanResponse(status=s)`: every field but `status` takes its default, `None`. */
  function NewPlanResponse(status: string): PlanResponse {
    PlanResponse(status, None, None, None)
  }

  // ---------------------------------------------------------------------------------------
  // Document shapes: what a decoded value must look like for each schema to accept it.

  predicate IsStrList(j: Json) {
    j.JArr? && forall i :: 0 <= i < |j.items| ==> j.items[i].JStr?
  }

  predicate HasStr(m: map<string, Json>, k: string) {
    k in m && m[k].JStr?
  }

  /** An `Optional[str]` field: absent, `null` or a string. */
  predicate OptStrOk(m: map<string, Json>, k: string) {
    k !in m || m[k].JNull? || m[k].JStr?
  }

  /** An `Optional[List[str]]` field: absent, `null` or a list of strings. */
  predicate OptStrListOk(m: map<string, Json>, k: string) {
    k !in m || m[k].JNull? || IsStrList(m[k])
  }

  predicate IsMacrosDoc(j: Json) {
    && j.JObj?
    && HasStr(j.fields, "protein")
    && HasStr(j.fields, "carbohydrates")
    && HasStr(j.fields, "fats")
    && OptStrOk(j.fields, "fiber")
  }

  predicate IsStrListMapDoc(j: Json) {
    j.JObj? && forall k :: k in j.fields ==> IsStrList(j.fields[k])
  }

  predicate IsStrMapDoc(j: Json) {
    j.JObj? && forall k :: k in j.fields ==> j.fields[k].JStr?
  }

  predicate IsMealPlanDoc(j: Json) {
    && j.JObj?
    && HasStr(j.fields, "goal")
    && HasStr(j.fields, "calorie_target")
    && "macronutrient_breakdown" in j.fields && IsMacrosDoc(j.fields["macronutrient_breakdown"])
    && HasStr(j.fields, "meal_frequency")
    && "sample_meals" in j.fields && IsStrListMapDoc(j.fields["sample_meals"])
    && OptStrListOk(j.fields, "nutrition_tips")
    && OptStrListOk(j.fields, "supplements")
  }

  predicate IsExerciseDoc(j: Json) {
    && j.JObj?
    && HasStr(j.fields, "name")
    && HasStr(j.fields, "sets")
    && HasStr(j.fields, "reps")
    && OptStrOk(j.fields, "rest")
    && OptStrOk(j.fields, "notes")
  }

  predicate IsWorkoutDayDoc(j: Json) {
    && j.JObj?
    && HasStr(j.fields, "day_name")
    && HasStr(j.fields, "focus")
    && "exercises" in j.fields && j.fields["exercises"].JArr?
    && (forall i :: 0 <= i < |j.fields["exercises"].items| ==> IsExerciseDoc(j.fields["exercises"].items[i]))
    && OptStrOk(j.fields, "duration")
    && OptStrListOk(j.fields, "warm_up")
    && OptStrListOk(j.fields, "cool_down")
  }

  predicate IsWorkoutPlanDoc(j: Json) {
    && j.JObj?
    && HasStr(j.fields, "goal")
    && HasStr(j.fields, "frequency")
    && HasStr(j.fields, "split")
    && "weekly_schedule" in j.fields && j.fields["weekly_schedule"].JArr?
    && (forall i :: 0 <= i < |j.fields["weekly_schedule"].items| ==> IsWorkoutDayDoc(j.fields["weekly_schedule"].items[i]))
    && OptStrListOk(j.fields, "progression_notes")
    && OptStrListOk(j.fields, "safety_tips")
  }

  /** The keyword arguments `FitnessPlan(**m)` accepts. */
  predicate IsFitnessPlanDoc(m: map<string, Json>) {
    && "meal_plan" in m && IsMealPlanDoc(m["meal_plan"])
    && "workout_plan" in m && IsWorkoutPlanDoc(m["workout_plan"])
    && OptStrListOk(m, "general_recommendations")
    && (!("progress_tracking" in m) || m["progress_tracking"].JNull? || IsStrMapDoc(m["progress_tracking"]))
  }

  // ---------------------------------------------------------------------------------------
  // Encoding: the dict a typed value serialises to, with `None` written as `null`.

  function StrListJson(xs: seq<string>): Json {
    JArr(seq(|xs|, i requires 0 <= i < |xs| => JStr(xs[i])))
  }

  function OptStrListJson(xs: Option<seq<string>>): Json {
    match xs
    case None => JNull
    case Some(v) => StrListJson(v)
  }

  function EncodeMacros(x: MacronutrientBreakdown): Json {
    JObj(map[
      "protein" := JStr(x.protein),
      "carbohydrates" := JStr(x.carbohydrates),
      "fats" := JStr(x.fats),
      "fiber" := OptStrJson(x.fiber)])
  }

  function EncodeMealPlan(x: MealPlan): Json {
    JObj(map[
      "goal" := JStr(x.goal),
      "calorie_target" := JStr(x.calorieTarget),
      "macronutrient_breakdown" := EncodeMacros(x.macronutrientBreakdown),
      "meal_frequency" := JStr(x.mealFrequency),
      "sample_meals" := JObj(map k | k in x.sampleMeals :: StrListJson(x.sampleMeals[k])),
      "nutrition_tips" := OptStrListJson(x.nutritionTips),
      "supplements" := OptStrListJson(x.supplements)])
  }

  function EncodeExercise(x: Exercise): Json {
    JObj(map[
      "name" := JStr(x.name),
      "sets" := JStr(x.sets),
      "reps" := JStr(x.reps),
      "rest" := OptStrJson(x.rest),
      "notes" := OptStrJson(x.notes)])
  }

  function EncodeExercises(xs: seq<Exercise>): Json {
    JArr(seq(|xs|, i requires 0 <= i < |xs| => EncodeExercise(xs[i])))
  }

  function EncodeWorkoutDay(x: WorkoutDay): Json {
    JObj(map[
      "day_name" := JStr(x.dayName),
      "focus" := JStr(x.focus),
      "exercises" := EncodeExercises(x.exercises),
      "duration" := OptStrJson(x.duration),
      "warm_up" := OptStrListJson(x.warmUp),
      "cool_down" := OptStrListJson(x.coolDown)])
  }

  function EncodeSchedule(xs: seq<WorkoutDay>): Json {
    JArr(seq(|xs|, i requires 0 <= i < |xs| => EncodeWorkoutDay(xs[i])))
  }

  function EncodeWorkoutPlan(x: WorkoutPlan): Json {
    JObj(map[
      "goal" := JStr(x.goal),
      "frequency" := JStr(x.frequency),
      "split" := JStr(x.split),
      "weekly_schedule" := EncodeSchedule(x.weeklySchedule),
      "progression_notes" := OptStrListJson(x.progressionNotes),
      "safety_tips" := OptStrListJson(x.safetyTips)])
  }

  function EncodePlan(x: FitnessPlan): map<string, Json> {
    map[
      "meal_plan" := EncodeMealPlan(x.mealPlan),
      "workout_plan" := EncodeWorkoutPlan(x.workoutPlan),
      "general_recommendations" := OptStrListJson(x.generalRecommendations),
      "progress_tracking" :=
        match x.progressTracking
        case None => JNull
        case Some(t) => JObj(map k | k in t :: JStr(t[k]))]
  }

  // ---------------------------------------------------------------------------------------
  // Validation.

  function AsStr(j: Json, at: seq<Step>): (r: Result<string, SchemaError>)
    ensures r.Success? <==> j.JStr?
    ensures r.Success? ==> JStr(r.value) == j
  {
    if j.JStr? then Success(j.s) else Failure(WrongType(at))
  }

  /** Validates every element of a list with `item`, stopping at the first element that fails. */
  function ValidateItems<T>(items: seq<Json>, item: (Json, seq<Step>) -> Result<T, SchemaError>,
                            at: seq<Step>, base: nat): (r: Result<seq<T>, SchemaError>)
    ensures r.Success? <==> forall i :: 0 <= i < |items| ==> item(items[i], at + [Index(base + i)]).Success?
    ensures r.Success? ==> |r.value| == |items|
    ensures r.Success? ==> forall i :: 0 <= i < |items| ==> item(items[i], at + [Index(base + i)]) == Success(r.value[i])
    decreases |items|
  {
    if |items| == 0 then Success([])
    else
      var head :- item(items[0], at + [Index(base)]);
      var tail :- ValidateItems(items[1..], item, at, base + 1);
      assert forall i :: 1 <= i < |items| ==> items[i] == items[1..][i - 1] && base + i == base + 1 + (i - 1);
      Success([head] + tail)
  }

  /** `List[str]`. */
  function AsStrList(j: Json, at: seq<Step>): (r: Result<seq<string>, SchemaError>)
    ensures r.Success? <==> IsStrList(j)
    ensures r.Success? ==> StrListJson(r.value) == j
  {
    if j.JArr? then
      var r := ValidateItems(j.items, AsStr, at, 0);
      if r.Success? then
        assert seq(|r.value|, i requires 0 <= i < |r.value| => JStr(r.value[i])) == j.items;
        r
      else r
    else Failure(WrongType(at))
  }

  /** `Dict[str, List[str]]`. */
  function AsStrListMap(j: Json, at: seq<Step>): (r: Result<map<string, seq<string>>, SchemaError>)
    ensures r.Success? <==> IsStrListMapDoc(j)
    ensures r.Success? ==> JObj(map k | k in r.value :: StrListJson(r.value[k])) == j
  {
    if IsStrListMapDoc(j) then
      var v := map k | k in j.fields :: AsStrList(j.fields[k], at + [Key(k)]).value;
      assert (map k | k in v :: StrListJson(v[k])) == j.fields;
      Success(v)
    else Failure(WrongType(at))
  }

  /** `Dict[str, str]`. */
  function AsStrMap(j: Json, at: seq<Step>): (r: Result<map<string, string>, SchemaError>)
    ensures r.Success? <==> IsStrMapDoc(j)
    ensures r.Success? ==> JObj(map k | k in r.value :: JStr(r.value[k])) == j
  {
    if IsStrMapDoc(j) then
      var v := map k | k in j.fields :: j.fields[k].s;
      assert (map k | k in v :: JStr(v[k])) == j.fields;
      Success(v)
    else Failure(WrongType(at))
  }

  /** A required field: absent is `Missing`, present is checked by `read`. */
  function Required<T>(m: map<string, Json>, k: string, at: seq<Step>,
                       read: (Json, seq<Step>) -> Result<T, SchemaError>): (r: Result<T, SchemaError>)
    ensures k !in m ==> r == Failure(Missing(at + [Key(k)]))
    ensures k in m ==> r == read(m[k], at + [Key(k)])
  {
    if k in m then read(m[k], at + [Key(k)]) else Failure(Missing(at + [Key(k)]))
  }

  /** An `Optional[...]` field with a default: absent takes `default`, `null` is `None`,
      anything else is checked by `read`. */
  function Optional<T>(m: map<string, Json>, k: string, at: seq<Step>,
                       read: (Json, seq<Step>) -> Result<T, SchemaError>, default: Option<T>): (r: Result<Option<T>, SchemaError>)
    ensures k !in m ==> r == Success(default)
    ensures k in m && m[k].JNull? ==> r == Success(None)
    ensures k in m && !m[k].JNull? ==> (r.Success? <==> read(m[k], at + [Key(k)]).Success?)
    ensures k in m && !m[k].JNull? && r.Success? ==> r.value.Some? && read(m[k], at + [Key(k)]) == Success(r.value.value)
  {
    if k !in m then Success(default)
    else if m[k].JNull? then Success(None)
    else
      var v :- read(m[k], at + [Key(k)]);
      Success(Some(v))
  }

  /** `MacronutrientBreakdown(**j)`. */
  function ValidateMacros(j: Json, at: seq<Step>): (r: Result<MacronutrientBreakdown, SchemaError>)
    ensures j.JObj? && "protein" !in j.fields ==> r == Failure(Missing(at + [Key("protein")]))
    ensures r.Success? ==> (j.JObj?
      && HasStr(j.fields, "protein") && r.value.protein == j.fields["protein"].s
      && HasStr(j.fields, "carbohydrates") && r.value.carbohydrates == j.fields["carbohydrates"].s
      && HasStr(j.fields, "fats") && r.value.fats == j.fields["fats"].s
      && ("fiber" !in j.fields ==> r.value.fiber.None?))
  {
    if !j.JObj? then Failure(WrongType(at))
    else
      var m := j.fields;
      var protein :- Required(m, "protein", at, AsStr);
      var carbohydrates :- Required(m, "carbohydrates", at, AsStr);
      var fats :- Required(m, "fats", at, AsStr);
      var fiber :- Optional(m, "fiber", at, AsStr, None);
      Success(MacronutrientBreakdown(protein, carbohydrates, fats, fiber))
  }

  /** `MealPlan(**j)`. */
  function ValidateMealPlan(j: Json, at: seq<Step>): (r: Result<MealPlan, SchemaError>)
    ensures j.JObj? && "goal" !in j.fields ==> r == Failure(Missing(at + [Key("goal")]))
    ensures r.Success? ==> (j.JObj?
      && HasStr(j.fields, "goal") && r.value.goal == j.fields["goal"].s
      && HasStr(j.fields, "calorie_target") && r.value.calorieTarget == j.fields["calorie_target"].s
      && "macronutrient_breakdown" in j.fields
      && HasStr(j.fields, "meal_frequency") && r.value.mealFrequency == j.fields["meal_frequency"].s
      && "sample_meals" in j.fields && IsStrListMapDoc(j.fields["sample_meals"])
      && r.value.sampleMeals.Keys == j.fields["sample_meals"].fields.Keys
      && ("nutrition_tips" !in j.fields ==> r.value.nutritionTips == Some([]))
      && ("supplements" !in j.fields ==> r.value.supplements == Some([])))
  {
    if !j.JObj? then Failure(WrongType(at))
    else
      var m := j.fields;
      var goal :- Required(m, "goal", at, AsStr);
      var calorieTarget :- Required(m, "calorie_target", at, AsStr);
      var macros :- Required(m, "macronutrient_breakdown", at, ValidateMacros);
      var mealFrequency :- Required(m, "meal_frequency", at, AsStr);
      var sampleMeals :- Required(m, "sample_meals", at, AsStrListMap);
      assert JObj(map k | k in sampleMeals :: StrListJson(sampleMeals[k])) == m["sample_meals"];
      var nutritionTips :- Optional(m, "nutrition_tips", at, AsStrList, Some([]));
      var supplements :- Optional(m, "supplements", at, AsStrList, Some([]));
      Success(MealPlan(goal, calorieTarget, macros, mealFrequency, sampleMeals, nutritionTips, supplements))
  }

  /** `Exercise(**j)`. */
  function ValidateExercise(j: Json, at: seq<Step>): (r: Result<Exercise, SchemaError>)
    ensures j.JObj? && "name" !in j.fields ==> r == Failure(Missing(at + [Key("name")]))
    ensures r.Success? ==> (j.JObj?
      && HasStr(j.fields, "name") && r.value.name == j.fields["name"].s
      && HasStr(j.fields, "sets") && r.value.sets == j.fields["sets"].s
      && HasStr(j.fields, "reps") && r.value.reps == j.fields["reps"].s
      && ("rest" !in j.fields ==> r.value.rest.None?)
      && ("notes" !in j.fields ==> r.value.notes.None?))
  {
    if !j.JObj? then Failure(WrongType(at))
    else
      var m := j.fields;
      var name :- Required(m, "name", at, AsStr);
      var sets :- Required(m, "sets", at, AsStr);
      var reps :- Required(m, "reps", at, AsStr);
      var rest :- Optional(m, "rest", at, AsStr, None);
      var notes :- Optional(m, "notes", at, AsStr, None);
      Success(Exercise(name, sets, reps, rest, notes))
  }

  /** `List[Exercise]`. */
  function AsExerciseList(j: Json, at: seq<Step>): (r: Result<seq<Exercise>, SchemaError>)
    ensures r.Success? ==> j.JArr? && |r.value| == |j.items|
  {
    if j.JArr? then ValidateItems(j.items, ValidateExercise, at, 0) else Failure(WrongType(at))
  }

  /** `WorkoutDay(**j)`. */
  function ValidateWorkoutDay(j: Json, at: seq<Step>): (r: Result<WorkoutDay, SchemaError>)
    ensures j.JObj? && "day_name" !in j.fields ==> r == Failure(Missing(at + [Key("day_name")]))
    ensures r.Success? ==> (j.JObj?
      && HasStr(j.fields, "day_name") && r.value.dayName == j.fields["day_name"].s
      && HasStr(j.fields, "focus") && r.value.focus == j.fields["focus"].s
      && "exercises" in j.fields && j.fields["exercises"].JArr?
      && |r.value.exercises| == |j.fields["exercises"].items|
      && ("duration" !in j.fields ==> r.value.duration.None?)
      && ("warm_up" !in j.fields ==> r.value.warmUp == Some([]))
      && ("cool_down" !in j.fields ==> r.value.coolDown == Some([])))
  {
    if !j.JObj? then Failure(WrongType(at))
    else
      var m := j.fields;
      var dayName :- Required(m, "day_name", at, AsStr);
      var focus :- Required(m, "focus", at, AsStr);
      var exercises :- Required(m, "exercises", at, AsExerciseList);
      var duration :- Optional(m, "duration", at, AsStr, None);
      var warmUp :- Optional(m, "warm_up", at, AsStrList, Some([]));
      var coolDown :- Optional(m, "cool_down", at, AsStrList, Some([]));
      Success(WorkoutDay(dayName, focus, exercises, duration, warmUp, coolDown))
  }

  /** `List[WorkoutDay]`. */
  function AsWorkoutDayList(j: Json, at: seq<Step>): (r: Result<seq<WorkoutDay>, SchemaError>)
    ensures r.Success? ==> j.JArr? && |r.value| == |j.items|
  {
    if j.JArr? then ValidateItems(j.items, ValidateWorkoutDay, at, 0) else Failure(WrongType(at))
  }

  /** `WorkoutPlan(**j)`. */
  function ValidateWorkoutPlan(j: Json, at: seq<Step>): (r: Result<WorkoutPlan, SchemaError>)
    ensures j.JObj? && "goal" !in j.fields ==> r == Failure(Missing(at + [Key("goal")]))
    ensures r.Success? ==> (j.JObj?
      && HasStr(j.fields, "goal") && r.value.goal == j.fields["goal"].s
      && HasStr(j.fields, "frequency") && r.value.frequency == j.fields["frequency"].s
      && HasStr(j.fields, "split") && r.value.split == j.fields["split"].s
      && "weekly_schedule" in j.fields && j.fields["weekly_schedule"].JArr?
      && |r.value.weeklySchedule| == |j.fields["weekly_schedule"].items|
      && ("progression_notes" !in j.fields ==> r.value.progressionNotes == Some([]))
      && ("safety_tips" !in j.fields ==> r.value.safetyTips == Some([])))
  {
    if !j.JObj? then Failure(WrongType(at))
    else
      var m := j.fields;
      var goal :- Required(m, "goal", at, AsStr);
      var frequency :- Required(m, "frequency", at, AsStr);
      var split :- Required(m, "split", at, AsStr);
      var schedule :- Required(m, "weekly_schedule", at, AsWorkoutDayList);
      var progressionNotes :- Optional(m, "progression_notes", at, AsStrList, Some([]));
      var safetyTips :- Optional(m, "safety_tips", at, AsStrList, Some([]));
      Success(WorkoutPlan(goal, frequency, split, schedule, progressionNotes, safetyTips))
  }

  /** `FitnessPlan(**m)`: the keys of `m` are the keyword arguments; unknown keys are ignored. */
  function ValidatePlan(m: map<string, Json>): (r: Result<FitnessPlan, SchemaError>)
    ensures "meal_plan" !in m ==> r == Failure(Missing([Key("meal_plan")]))
    ensures "meal_plan" in m && ValidateMealPlan(m["meal_plan"], [Key("meal_plan")]).Success? && "workout_plan" !in m ==>
      r == Failure(Missing([Key("workout_plan")]))
    ensures r.Success? ==> ("meal_plan" in m && "workout_plan" in m
      && ValidateMealPlan(m["meal_plan"], [Key("meal_plan")]) == Success(r.value.mealPlan)
      && ValidateWorkoutPlan(m["workout_plan"], [Key("workout_plan")]) == Success(r.value.workoutPlan)
      && ("general_recommendations" !in m ==> r.value.generalRecommendations == Some([]))
      && ("progress_tracking" !in m ==> r.value.progressTracking == Some(map[])))
  {
    assert [] + [Key("meal_plan")] == [Key("meal_plan")];
    assert [] + [Key("workout_plan")] == [Key("workout_plan")];
    var mealPlan :- Required(m, "meal_plan", [], ValidateMealPlan);
    var workoutPlan :- Required(m, "workout_plan", [], ValidateWorkoutPlan);
    var general :- Optional(m, "general_recommendations", [], AsStrList, Some([]));
    var tracking :- Optional(m, "progress_tracking", [], AsStrMap, Some(map[]));
    Success(FitnessPlan(mealPlan, workoutPlan, general, tracking))
  }

  /** A nested `FitnessPlan` field: a dict validated as `FitnessPlan(**j)`. */
  function AsPlan(j: Json, at: seq<Step>): (r: Result<FitnessPlan, SchemaError>)
    ensures !j.JObj? ==> r == Failure(WrongType(at))
    ensures j.JObj? ==> r == ValidatePlan(j.fields)
  {
    if j.JObj? then ValidatePlan(j.fields) else Failure(WrongType(at))
  }

  /** `PlanResponse(**m)`: `status` is required; `message`, `data` and `error` default to `None`. */
  function ValidateResponse(m: map<string, Json>): (r: Result<PlanResponse, SchemaError>)
    ensures "status" !in m ==> r == Failure(Missing([Key("status")]))
    ensures r.Success? ==> "status" in m && m["status"] == JStr(r.value.status)
    ensures r.Success? && "message" !in m ==> r.value.message.None?
    ensures r.Success? && "data" !in m ==> r.value.data.None?
    ensures r.Success? && "error" !in m ==> r.value.error.None?
  {
    assert [] + [Key("status")] == [Key("status")];
    var status :- Required(m, "status", [], AsStr);
    var message :- Optional(m, "message", [], AsStr, None);
    var data :- Optional(m, "data", [], AsPlan, None);
    var error :- Optional(m, "error", [], AsStr, None);
    Success(PlanResponse(status, message, data, error))
  }

  /** The dict a response serialises to, with `None` written as `null`. */
  function EncodeResponse(x: PlanResponse): map<string, Json> {
    map[
      "status" := JStr(x.status),
      "message" := OptStrJson(x.message),
      "data" := (match x.data case None => JNull case Some(plan) => JObj(EncodePlan(plan))),
      "error" := OptStrJson(x.error)]
  }

  // ---------------------------------------------------------------------------------------
  // Round trips: every typed value survives encoding and re-validation unchanged.

  lemma StrListRoundTrip(xs: seq<string>, at: seq<Step>)
    ensures AsStrList(StrListJson(xs), at) == Success(xs)
  {
    var r := AsStrList(StrListJson(xs), at);
    assert IsStrList(StrListJson(xs));
    assert StrListJson(r.value) == StrListJson(xs);
    assert |r.value| == |xs|;
    assert forall i :: 0 <= i < |xs| ==> JStr(r.value[i]) == StrListJson(xs).items[i];
    assert r.value == xs;
  }

  lemma OptStrListRoundTrip(xs: Option<seq<string>>, m: map<string, Json>, k: string, at: seq<Step>)
    requires k in m && m[k] == OptStrListJson(xs)
    ensures Optional(m, k, at, AsStrList, Some([])) == Success(xs)
  {
    if xs.Some? {
      StrListRoundTrip(xs.value, at + [Key(k)]);
    }
  }

  lemma MacrosRoundTrip(x: MacronutrientBreakdown, at: seq<Step>)
    ensures ValidateMacros(EncodeMacros(x), at) == Success(x)
  {
  }

  lemma {:induction false} StrListMapRoundTrip(x: map<string, seq<string>>, at: seq<Step>)
    ensures AsStrListMap(JObj(map k | k in x :: StrListJson(x[k])), at) == Success(x)
  {
    forall k | k in x
      ensures IsStrList(StrListJson(x[k]))
    {
      StrListRoundTrip(x[k], at);
    }
    var r := AsStrListMap(JObj(map k | k in x :: StrListJson(x[k])), at);
    assert r.Success?;
    forall k | k in x
      ensures r.value[k] == x[k]
    {
      StrListRoundTrip(x[k], at);
      StrListRoundTrip(r.value[k], at);
    }
    assert r.value == x;
  }

  /** The entries of a meal plan's encoding. */
  lemma EncodeMealPlanFields(x: MealPlan)
    ensures var m := EncodeMealPlan(x).fields;
      && "goal" in m && m["goal"] == JStr(x.goal)
      && "calorie_target" in m && m["calorie_target"] == JStr(x.calorieTarget)
      && "meal_frequency" in m && m["meal_frequency"] == JStr(x.mealFrequency)
      && "macronutrient_breakdown" in m && m["macronutrient_breakdown"] == EncodeMacros(x.macronutrientBreakdown)
      && "sample_meals" in m && m["sample_meals"] == JObj(map k | k in x.sampleMeals :: StrListJson(x.sampleMeals[k]))
      && "nutrition_tips" in m && m["nutrition_tips"] == OptStrListJson(x.nutritionTips)
      && "supplements" in m && m["supplements"] == OptStrListJson(x.supplements)
  {
  }

  lemma {:induction false} MealPlanRoundTrip(x: MealPlan, at: seq<Step>)
    ensures ValidateMealPlan(EncodeMealPlan(x), at) == Success(x)
  {
    var j := EncodeMealPlan(x);
    var m := j.fields;
    EncodeMealPlanFields(x);
    MacrosRoundTrip(x.macronutrientBreakdown, at + [Key("macronutrient_breakdown")]);
    StrListMapRoundTrip(x.sampleMeals, at + [Key("sample_meals")]);
    OptStrListRoundTrip(x.nutritionTips, m, "nutrition_tips", at);
    OptStrListRoundTrip(x.supplements, m, "supplements", at);
  }

  lemma ExerciseRoundTrip(x: Exercise, at: seq<Step>)
    ensures ValidateExercise(EncodeExercise(x), at) == Success(x)
  {
  }

  /** A list whose elements all round-trip through `item` round-trips as a whole. */
  lemma ItemsRoundTrip<T>(xs: seq<T>, items: seq<Json>, item: (Json, seq<Step>) -> Result<T, SchemaError>,
                          at: seq<Step>)
    requires |items| == |xs|
    requires forall i :: 0 <= i < |xs| ==> item(items[i], at + [Index(i)]) == Success(xs[i])
    ensures ValidateItems(items, item, at, 0) == Success(xs)
  {
    var r := ValidateItems(items, item, at, 0);
    assert r.Success?;
    assert forall i :: 0 <= i < |xs| ==> r.value[i] == xs[i];
    assert r.value == xs;
  }

  lemma {:induction false} ExercisesRoundTrip(xs: seq<Exercise>, path: seq<Step>)
    ensures AsExerciseList(EncodeExercises(xs), path) == Success(xs)
  {
    var items := EncodeExercises(xs).items;
    forall i | 0 <= i < |xs|
      ensures ValidateExercise(items[i], path + [Index(i)]) == Success(xs[i])
    {
      ExerciseRoundTrip(xs[i], path + [Index(i)]);
    }
    ItemsRoundTrip(xs, items, ValidateExercise, path);
  }

  /** The entries of a workout day's encoding. */
  lemma EncodeWorkoutDayFields(x: WorkoutDay)
    ensures var m := EncodeWorkoutDay(x).fields;
      && "day_name" in m && m["day_name"] == JStr(x.dayName)
      && "focus" in m && m["focus"] == JStr(x.focus)
      && "duration" in m && m["duration"] == OptStrJson(x.duration)
      && "exercises" in m && m["exercises"] == EncodeExercises(x.exercises)
      && "warm_up" in m && m["warm_up"] == OptStrListJson(x.warmUp)
      && "cool_down" in m && m["cool_down"] == OptStrListJson(x.coolDown)
  {
  }

  lemma {:induction false} WorkoutDayRoundTrip(x: WorkoutDay, at: seq<Step>)
    ensures ValidateWorkoutDay(EncodeWorkoutDay(x), at) == Success(x)
  {
    var m := EncodeWorkoutDay(x).fields;
    EncodeWorkoutDayFields(x);
    ExercisesRoundTrip(x.exercises, at + [Key("exercises")]);
    OptStrListRoundTrip(x.warmUp, m, "warm_up", at);
    OptStrListRoundTrip(x.coolDown, m, "cool_down", at);
  }

  lemma {:induction false} ScheduleRoundTrip(xs: seq<WorkoutDay>, path: seq<Step>)
    ensures AsWorkoutDayList(EncodeSchedule(xs), path) == Success(xs)
  {
    var items := EncodeSchedule(xs).items;
    forall i | 0 <= i < |xs|
      ensures ValidateWorkoutDay(items[i], path + [Index(i)]) == Success(xs[i])
    {
      WorkoutDayRoundTrip(xs[i], path + [Index(i)]);
    }
    ItemsRoundTrip(xs, items, ValidateWorkoutDay, path);
  }

  lemma {:induction false} WorkoutPlanRoundTrip(x: WorkoutPlan, at: seq<Step>)
    ensures ValidateWorkoutPlan(EncodeWorkoutPlan(x), at) == Success(x)
  {
    var m := EncodeWorkoutPlan(x).fields;
    assert Required(m, "goal", at, AsStr) == Success(x.goal);
    assert Required(m, "frequency", at, AsStr) == Success(x.frequency);
    assert Required(m, "split", at, AsStr) == Success(x.split);
    ScheduleRoundTrip(x.weeklySchedule, at + [Key("weekly_schedule")]);
    assert Required(m, "weekly_schedule", at, AsWorkoutDayList) == Success(x.weeklySchedule);
    OptStrListRoundTrip(x.progressionNotes, m, "progression_notes", at);
    OptStrListRoundTrip(x.safetyTips, m, "safety_tips", at);
  }

  lemma {:induction false} TrackingRoundTrip(x: Option<map<string, string>>, m: map<string, Json>)
    requires "progress_tracking" in m
    requires m["progress_tracking"] == match x case None => JNull case Some(t) => JObj(map k | k in t :: JStr(t[k]))
    ensures Optional(m, "progress_tracking", [], AsStrMap, Some(map[])) == Success(x)
  {
    if x.Some? {
      var r := AsStrMap(m["progress_tracking"], [Key("progress_tracking")]);
      assert r.Success?;
      assert JObj(map k | k in r.value :: JStr(r.value[k])) == JObj(map k | k in x.value :: JStr(x.value[k]));
      assert r.value.Keys == x.value.Keys;
      assert forall k | k in x.value :: JStr(r.value[k]) == JStr(x.value[k]);
      assert r.value == x.value;
    }
  }

  /** `ValidatePlan` assembles the plan from its four field results. */
  lemma AssemblePlan(m: map<string, Json>, x: FitnessPlan)
    requires Required(m, "meal_plan", [], ValidateMealPlan) == Success(x.mealPlan)
    requires Required(m, "workout_plan", [], ValidateWorkoutPlan) == Success(x.workoutPlan)
    requires Optional(m, "general_recommendations", [], AsStrList, Some([])) == Success(x.generalRecommendations)
    requires Optional(m, "progress_tracking", [], AsStrMap, Some(map[])) == Success(x.progressTracking)
    ensures ValidatePlan(m) == Success(x)
  {
  }

  /** The four entries of a plan's encoding. */
  lemma EncodePlanFields(x: FitnessPlan)
    ensures var m := EncodePlan(x);
      && "meal_plan" in m && m["meal_plan"] == EncodeMealPlan(x.mealPlan)
      && "workout_plan" in m && m["workout_plan"] == EncodeWorkoutPlan(x.workoutPlan)
      && "general_recommendations" in m && m["general_recommendations"] == OptStrListJson(x.generalRecommendations)
      && "progress_tracking" in m
  {
  }

  /** Every plan is accepted back from its own encoding, unchanged. */
  lemma {:induction false} PlanRoundTrip(x: FitnessPlan)
    ensures ValidatePlan(EncodePlan(x)) == Success(x)
  {
    var m := EncodePlan(x);
    EncodePlanFields(x);
    MealPlanRoundTrip(x.mealPlan, [Key("meal_plan")]);
    WorkoutPlanRoundTrip(x.workoutPlan, [Key("workout_plan")]);
    assert [] + [Key("meal_plan")] == [Key("meal_plan")];
    assert [] + [Key("workout_plan")] == [Key("workout_plan")];
    OptStrListRoundTrip(x.generalRecommendations, m, "general_recommendations", []);
    TrackingRoundTrip(x.progressTracking, m);
    AssemblePlan(m, x);
  }

  /** With both required fields valid and both optional top-level fields absent, the plan takes
      the documented defaults. */
  lemma AssembleDefaults(m: map<string, Json>, meal: MealPlan, workout: WorkoutPlan)
    requires "meal_plan" in m && ValidateMealPlan(m["meal_plan"], [Key("meal_plan")]) == Success(meal)
    requires "workout_plan" in m && ValidateWorkoutPlan(m["workout_plan"], [Key("workout_plan")]) == Success(workout)
    requires "general_recommendations" !in m && "progress_tracking" !in m
    ensures ValidatePlan(m) == Success(FitnessPlan(meal, workout, Some([]), Some(map[])))
  {
    assert [] + [Key("meal_plan")] == [Key("meal_plan")];
    assert [] + [Key("workout_plan")] == [Key("workout_plan")];
  }

  /** The entries of a document holding only the two required keys. */
  lemma RequiredOnlyFields(meal: MealPlan, workout: WorkoutPlan)
    ensures var m := map["meal_plan" := EncodeMealPlan(meal), "workout_plan" := EncodeWorkoutPlan(workout)];
      && "meal_plan" in m && m["meal_plan"] == EncodeMealPlan(meal)
      && "workout_plan" in m && m["workout_plan"] == EncodeWorkoutPlan(workout)
      && "general_recommendations" !in m && "progress_tracking" !in m
  {
  }

  /** A document holding only the two required keys is accepted, and the optional top-level
      fields take their documented defaults: an empty list and an empty mapping. */
  lemma {:induction false} PlanDefaults(meal: MealPlan, workout: WorkoutPlan)
    ensures ValidatePlan(map["meal_plan" := EncodeMealPlan(meal), "workout_plan" := EncodeWorkoutPlan(workout)])
         == Success(FitnessPlan(meal, workout, Some([]), Some(map[])))
  {
    var m := map["meal_plan" := EncodeMealPlan(meal), "workout_plan" := EncodeWorkoutPlan(workout)];
    RequiredOnlyFields(meal, workout);
    MealPlanRoundTrip(meal, [Key("meal_plan")]);
    WorkoutPlanRoundTrip(workout, [Key("workout_plan")]);
    AssembleDefaults(m, meal, workout);
  }

  /** The four entries of a response's encoding. */
  lemma EncodeResponseFields(x: PlanResponse)
    ensures var m := EncodeResponse(x);
      && "status" in m && m["status"] == JStr(x.status)
      && "message" in m && m["message"] == OptStrJson(x.message)
      && "data" in m && m["data"] == (match x.data case None => JNull case Some(plan) => JObj(EncodePlan(plan)))
      && "error" in m && m["error"] == OptStrJson(x.error)
  {
  }

  /** An `Optional[str]` field with default `None` reads back the value it was written from. */
  lemma OptStrRoundTrip(v: Option<string>, m: map<string, Json>, k: string)
    requires k in m && m[k] == OptStrJson(v)
    ensures Optional(m, k, [], AsStr, None) == Success(v)
  {
  }

  /** The `data` field reads back the plan it was written from. */
  lemma {:induction false} DataRoundTrip(v: Option<FitnessPlan>, m: map<string, Json>)
    requires "data" in m && m["data"] == (match v case None => JNull case Some(plan) => JObj(EncodePlan(plan)))
    ensures Optional(m, "data", [], AsPlan, None) == Success(v)
  {
    if v.Some? {
      PlanRoundTrip(v.value);
    }
  }

  /** `ValidateResponse` assembles the response from its four field results. */
  lemma AssembleResponse(m: map<string, Json>, x: PlanResponse)
    requires "status" in m && m["status"] == JStr(x.status)
    requires Optional(m, "message", [], AsStr, None) == Success(x.message)
    requires Optional(m, "data", [], AsPlan, None) == Success(x.data)
    requires Optional(m, "error", [], AsStr, None) == Success(x.error)
    ensures ValidateResponse(m) == Success(x)
  {
    assert [] + [Key("status")] == [Key("status")];
  }

  /** Every response envelope is accepted back from its own encoding, unchanged, plan included. */
  lemma {:induction false} ResponseRoundTrip(x: PlanResponse)
    ensures ValidateResponse(EncodeResponse(x)) == Success(x)
  {
    var m := EncodeResponse(x);
    EncodeResponseFields(x);
    OptStrRoundTrip(x.message, m, "message");
    DataRoundTrip(x.data, m);
    OptStrRoundTrip(x.error, m, "error");
    AssembleResponse(m, x);
  }

  /** A document holding only `status` is the response `PlanResponse(status=s)` builds: every
      other field takes its default, `None`. */
  lemma StatusOnlyResponse(s: string)
    ensures ValidateResponse(map["status" := JStr(s)]) == Success(NewPlanResponse(s))
  {
  }

  // ---------------------------------------------------------------------------------------
  // Acceptance: each validator accepts exactly the documents of its declared shape.

  lemma MacrosAcceptance(j: Json, at: seq<Step>)
    ensures ValidateMacros(j, at).Success? <==> IsMacrosDoc(j)
  {
  }

  lemma {:induction false} MealPlanAcceptance(j: Json, at: seq<Step>)
    ensures ValidateMealPlan(j, at).Success? <==> IsMealPlanDoc(j)
  {
    if j.JObj? && "macronutrient_breakdown" in j.fields {
      MacrosAcceptance(j.fields["macronutrient_breakdown"], at + [Key("macronutrient_breakdown")]);
    }
  }

  lemma ExerciseAcceptance(j: Json, at: seq<Step>)
    ensures ValidateExercise(j, at).Success? <==> IsExerciseDoc(j)
  {
  }

  lemma {:induction false} WorkoutDayAcceptance(j: Json, at: seq<Step>)
    ensures ValidateWorkoutDay(j, at).Success? <==> IsWorkoutDayDoc(j)
  {
    if j.JObj? && "exercises" in j.fields && j.fields["exercises"].JArr? {
      var items := j.fields["exercises"].items;
      var path := at + [Key("exercises")];
      forall i | 0 <= i < |items|
        ensures ValidateExercise(items[i], path + [Index(0 + i)]).Success? <==> IsExerciseDoc(items[i])
      {
        ExerciseAcceptance(items[i], path + [Index(0 + i)]);
      }
      assert AsExerciseList(j.fields["exercises"], path).Success?
        <==> forall i :: 0 <= i < |items| ==> IsExerciseDoc(items[i]);
    }
  }

  lemma {:induction false} WorkoutPlanAcceptance(j: Json, at: seq<Step>)
    ensures ValidateWorkoutPlan(j, at).Success? <==> IsWorkoutPlanDoc(j)
  {
    if j.JObj? && "weekly_schedule" in j.fields && j.fields["weekly_schedule"].JArr? {
      var items := j.fields["weekly_schedule"].items;
      var path := at + [Key("weekly_schedule")];
      forall i | 0 <= i < |items|
        ensures ValidateWorkoutDay(items[i], path + [Index(0 + i)]).Success? <==> IsWorkoutDayDoc(items[i])
      {
        WorkoutDayAcceptance(items[i], path + [Index(0 + i)]);
      }
      assert AsWorkoutDayList(j.fields["weekly_schedule"], path).Success?
        <==> forall i :: 0 <= i < |items| ==> IsWorkoutDayDoc(items[i]);
    }
  }

  /** `FitnessPlan(**m)` succeeds exactly when `m` has the declared shape: both required
      sub-plans present and well formed, and every optional field absent, `null` or well typed. */
  lemma {:induction false} PlanAcceptance(m: map<string, Json>)
    ensures ValidatePlan(m).Success? <==> IsFitnessPlanDoc(m)
  {
    assert [] + [Key("meal_plan")] == [Key("meal_plan")];
    assert [] + [Key("workout_plan")] == [Key("workout_plan")];
    if "meal_plan" in m {
      MealPlanAcceptance(m["meal_plan"], [Key("meal_plan")]);
    }
    if "workout_plan" in m {
      WorkoutPlanAcceptance(m["workout_plan"], [Key("workout_plan")]);
    }
  }
}

=== FILE: prompts.dfy ===
/** The two prompt templates: the fitness-plan prompt built from a profile, and the validation
    prompt wrapped around a plan text. Both are multi-line f-strings that open with a newline;
    here they are lists of lines joined by `Unlines`. Python's `str()` of a float is the
    parameter `showFloat`. */
module Prompts {
  import opened Wrappers
  import opened Strings
  import opened UserModel

  /** The opening of the fitness prompt, before the labelled profile lines. */
  const Opening: seq<string> := [
    "You are an expert fitness and nutrition coach. Create a comprehensive, personalized fitness plan for the following user profile:",
    "",
    "**User Profile:**"
  ]

  /** The labelled profile lines, one per field, grouped as basic info, nutrition, workout. */
  function ProfileLines(p: UserProfile, showFloat: real -> string): (ls: seq<string>)
    ensures |ls| == 22
  {
    [ "- Age: " + IntToDecimal(p.age) + " years",
      "- Gender: " + GenderLabel(p.gender),
      "- Height: " + showFloat(p.height) + " cm",
      "- Weight: " + showFloat(p.weight) + " kg",
      "- Activity Level: " + ActivityLabel(p.activityLevel),
      "- Fitness Goal: " + GoalLabel(p.goal),
      "- Target Weight: " + ShowOpt(p.goalWeight, showFloat) + " kg (if specified)",
      "",
      "**Nutrition Preferences:**",
      "- Meal Preference: " + MealPreferenceLabel(p.mealPreference),
      "- Meal Type: " + MealTypeLabel(p.mealType),
      "- Allergies: " + ShowOpt(p.allergies, ShowText),
      "- Medical Conditions: " + ShowOpt(p.medicalConditions, ShowText),
      "- Food Restrictions: " + ShowOpt(p.foodRestrictions, ShowText),
      "",
      "**Workout Preferences:**",
      "- Workout Days: " + IntToDecimal(p.workoutDays) + " days per week",
      "- Location: " + LocationLabel(p.workoutLocation),
      "- Split: " + SplitLabel(p.workoutSplit),
      "- Experience: " + ExperienceLabel(p.workoutExperience),
      "- Equipment: " + ShowOpt(p.equipmentAvailable, ShowText),
      "- Session Duration: " + ShowOpt(p.timePerSession, IntToDecimal) + " minutes"
    ]
  }

  /** Positions, within `ProfileLines`, of the lines that carry a profile field (the others are
      blank lines and section headings). */
  const FieldLineIndexes: seq<nat> := [0, 1, 2, 3, 4, 5, 6, 9, 10, 11, 12, 13, 16, 17, 18, 19, 20, 21]

  /** The fixed instructions between the profile block and the schema. */
  const Requirements: seq<string> := [
    "",
    "**Requirements:**",
    "1. Create a detailed meal plan with:",
    "   - Daily calorie target based on BMR and activity level",
    "   - Macronutrient breakdown (protein, carbs, fats)",
    "   - Sample meals for each meal time",
    "   - Nutrition tips and supplement recommendations",
    "",
    "2. Create a comprehensive workout plan with:",
    "   - Weekly schedule with specific days",
    "   - Exercise names, sets, reps, and rest periods",
    "   - Warm-up and cool-down routines",
    "   - Progression guidelines and safety tips",
    "",
    "3. Provide general recommendations for:",
    "   - Progress tracking methods",
    "   - Lifestyle modifications",
    "   - Recovery strategies",
    "",
    "**Output Format:**",
    "Provide the response in a structured JSON format that matches this schema:"
  ]

  /** The schema example's opening brace and its `meal_plan` object. */
  const SchemaMeal: seq<string> := [
    "{",
    "  \"meal_plan\": {",
    "    \"goal\": \"specific goal description\",",
    "    \"calorie_target\": \"daily calorie range\",",
    "    \"macronutrient_breakdown\": {",
    "      \"protein\": \"percentage or grams\",",
    "      \"carbohydrates\": \"percentage or grams\", ",
    "      \"fats\": \"percentage or grams\"",
    "    },",
    "    \"meal_frequency\": \"meal timing strategy\",",
    "    \"sample_meals\": {",
    "      \"breakfast\": [\"meal option 1\", \"meal option 2\"],",
    "      \"lunch\": [\"meal option 1\", \"meal option 2\"],",
    "      \"dinner\": [\"meal option 1\", \"meal option 2\"],",
    "      \"snacks\": [\"snack option 1\", \"snack option 2\"]",
    "    },",
    "    \"nutrition_tips\": [\"tip 1\", \"tip 2\", \"tip 3\"],",
    "    \"supplements\": [\"supplement 1\", \"supplement 2\"]",
    "  },"
  ]

  /** The schema example's `workout_plan` object. */
  const SchemaWorkout: seq<string> := [
    "  \"workout_plan\": {",
    "    \"goal\": \"workout goal description\",",
    "    \"frequency\": \"days per week\",",
    "    \"split\": \"workout split type\",",
    "    \"weekly_schedule\": [",
    "      {",
    "        \"day_name\": \"Day 1\",",
    "        \"focus\": \"muscle groups or type\",",
    "        \"exercises\": [",
    "          {",
    "            \"name\": \"Exercise Name\",",
    "            \"sets\": \"number of sets\",",
    "            \"reps\": \"repetition range\",",
    "            \"rest\": \"rest period\",",
    "            \"notes\": \"form cues or modifications\"",
    "          }",
    "        ],",
    "        \"duration\": \"estimated time\",",
    "        \"warm_up\": [\"warm-up exercise 1\", \"warm-up exercise 2\"],",
    "        \"cool_down\": [\"cool-down exercise 1\", \"cool-down exercise 2\"]",
    "      }",
    "    ],",
    "    \"progression_notes\": [\"progression tip 1\", \"progression tip 2\"],",
    "    \"safety_tips\": [\"safety tip 1\", \"safety tip 2\"]",
    "  },"
  ]

  /** The schema example's last two keys and its closing brace. */
  const SchemaRest: seq<string> := [
    "  \"general_recommendations\": [\"recommendation 1\", \"recommendation 2\"],",
    "  \"progress_tracking\": {",
    "    \"weight\": \"tracking frequency and method\",",
    "    \"measurements\": \"what to measure and when\",",
    "    \"performance\": \"how to track workout progress\"",
    "  }",
    "}"
  ]

  /** The example document the model is asked to follow, with the f-string's doubled braces
      undoubled. */
  const Schema: seq<string> := SchemaMeal + SchemaWorkout + SchemaRest

  /** The closing instruction. */
  const Closing: seq<string> := [
    "",
    "Make sure the plan is realistic, safe, and tailored to the user's specific needs and constraints."
  ]

  /** Every line of `generate_fitness_plan_prompt`, in order. */
  function PromptLines(p: UserProfile, showFloat: real -> string): (ls: seq<string>) {
    Opening + ProfileLines(p, showFloat) + Requirements + Schema + Closing
  }

  /** `generate_fitness_plan_prompt(user_profile)`. */
  function FitnessPrompt(p: UserProfile, showFloat: real -> string): (r: string)
    ensures |r| > 0 && r[0] == '\n'
  {
    "\n" + Unlines(PromptLines(p, showFloat))
  }

  /** Where line `k` of the profile block begins in the prompt. */
  function ProfileLineStart(p: UserProfile, showFloat: real -> string, k: nat): nat
    requires k < 22
  {
    1 + LineStart(PromptLines(p, showFloat), |Opening| + k)
  }

  /** Line `k` of the profile block is line `|Opening| + k` of the prompt. */
  lemma ProfileLineAt(p: UserProfile, showFloat: real -> string, k: nat)
    requires k < 22
    ensures |Opening| + k < |PromptLines(p, showFloat)|
    ensures PromptLines(p, showFloat)[|Opening| + k] == ProfileLines(p, showFloat)[k]
  {
  }

  /** Every profile line appears in the prompt as a whole line, at `ProfileLineStart`. */
  lemma {:induction false} ProfileLineShown(p: UserProfile, showFloat: real -> string, k: nat)
    requires k < 22
    ensures OccursAt(FitnessPrompt(p, showFloat), ProfileLines(p, showFloat)[k] + "\n", ProfileLineStart(p, showFloat, k))
  {
    var ls := PromptLines(p, showFloat);
    ProfileLineAt(p, showFloat, k);
    LineShown(ls, |Opening| + k);
  }

  /** The profile lines appear in the prompt in their template order, without overlapping:
      basic info, then nutrition, then workout preferences. */
  lemma {:induction false} ProfileLinesInOrder(p: UserProfile, showFloat: real -> string, i: nat, j: nat)
    requires i < j < 22
    ensures ProfileLineStart(p, showFloat, i) + |ProfileLines(p, showFloat)[i]| < ProfileLineStart(p, showFloat, j)
  {
    var ls := PromptLines(p, showFloat);
    ProfileLineAt(p, showFloat, i);
    ProfileLineAt(p, showFloat, j);
    LinesOrdered(ls, |Opening| + i, |Opening| + j);
  }

  /** Each of the eighteen profile fields has its labelled line in the prompt. */
  lemma {:induction false} EveryFieldShown(p: UserProfile, showFloat: real -> string)
    ensures forall n | 0 <= n < |FieldLineIndexes| ::
      FieldLineIndexes[n] < 22 &&
      OccursAt(FitnessPrompt(p, showFloat), ProfileLines(p, showFloat)[FieldLineIndexes[n]] + "\n",
               ProfileLineStart(p, showFloat, FieldLineIndexes[n]))
  {
    forall n | 0 <= n < |FieldLineIndexes|
      ensures FieldLineIndexes[n] < 22
      ensures OccursAt(FitnessPrompt(p, showFloat), ProfileLines(p, showFloat)[FieldLineIndexes[n]] + "\n",
                       ProfileLineStart(p, showFloat, FieldLineIndexes[n]))
    {
      ProfileLineShown(p, showFloat, FieldLineIndexes[n]);
    }
  }

  /** The eighteen field lines come in the template's order. */
  lemma {:induction false} FieldsInTemplateOrder(p: UserProfile, showFloat: real -> string)
    ensures forall n {:trigger FieldLineIndexes[n]} | 0 <= n < |FieldLineIndexes| - 1 ::
      FieldLineIndexes[n] < FieldLineIndexes[n + 1] < 22 &&
      ProfileLineStart(p, showFloat, FieldLineIndexes[n]) < ProfileLineStart(p, showFloat, FieldLineIndexes[n + 1])
  {
    forall n {:trigger FieldLineIndexes[n]} | 0 <= n < |FieldLineIndexes| - 1
      ensures FieldLineIndexes[n] < FieldLineIndexes[n + 1] < 22
      ensures ProfileLineStart(p, showFloat, FieldLineIndexes[n]) < ProfileLineStart(p, showFloat, FieldLineIndexes[n + 1])
    {
      ProfileLinesInOrder(p, showFloat, FieldLineIndexes[n], FieldLineIndexes[n + 1]);
    }
  }

  /** The prompt states the number of workout days in decimal. */
  lemma {:induction false} WorkoutDaysShown(p: UserProfile, showFloat: real -> string)
    ensures Contains(FitnessPrompt(p, showFloat), "- Workout Days: " + IntToDecimal(p.workoutDays) + " days per week" + "\n")
  {
    ProfileLineShown(p, showFloat, 16);
    assert ProfileLines(p, showFloat)[16] == "- Workout Days: " + IntToDecimal(p.workoutDays) + " days per week";
    assert OccursAt(FitnessPrompt(p, showFloat), ProfileLines(p, showFloat)[16] + "\n", ProfileLineStart(p, showFloat, 16));
  }

  /** The target-weight line is emitted whether or not a goal weight was given; without one it
      reads "None". */
  lemma {:induction false} TargetWeightAlwaysShown(p: UserProfile, showFloat: real -> string)
    ensures p.goalWeight.None? ==>
      Contains(FitnessPrompt(p, showFloat), "- Target Weight: " + "None" + " kg (if specified)" + "\n")
    ensures p.goalWeight.Some? ==>
      Contains(FitnessPrompt(p, showFloat), "- Target Weight: " + showFloat(p.goalWeight.value) + " kg (if specified)" + "\n")
  {
    ProfileLineShown(p, showFloat, 6);
    assert OccursAt(FitnessPrompt(p, showFloat), ProfileLines(p, showFloat)[6] + "\n", ProfileLineStart(p, showFloat, 6));
  }

  /** The schema lines holding its outer braces and its top-level keys, in order. */
  const SchemaKeyIndexes: seq<nat> := [0, 1, 19, 44, 45, 50]

  /** Where line `k` of the embedded schema begins in the prompt. */
  function SchemaLineStart(p: UserProfile, showFloat: real -> string, k: nat): nat
    requires k < |Schema|
  {
    1 + LineStart(PromptLines(p, showFloat), |Opening| + 22 + |Requirements| + k)
  }

  lemma {:induction false} SchemaLineShown(p: UserProfile, showFloat: real -> string, k: nat)
    requires k < |Schema|
    ensures OccursAt(FitnessPrompt(p, showFloat), Schema[k] + "\n", SchemaLineStart(p, showFloat, k))
  {
    var ls := PromptLines(p, showFloat);
    var n := |Opening| + 22 + |Requirements| + k;
    assert ls[n] == Schema[k];
    LineShown(ls, n);
  }

  /** The schema example is one object written with single braces: it opens with a line "{",
      closes with a line "}", and names the four top-level plan keys. */
  lemma SchemaKeyLines()
    ensures Schema[0] == "{" && Schema[|Schema| - 1] == "}"
    ensures Schema[1] == "  \"meal_plan\": {"
    ensures Schema[19] == "  \"workout_plan\": {"
    ensures Schema[44] == "  \"general_recommendations\": [\"recommendation 1\", \"recommendation 2\"],"
    ensures Schema[45] == "  \"progress_tracking\": {"
  {
  }

  /** In the prompt, the schema's opening brace, its four top-level keys and its closing brace
      appear as whole lines. */
  lemma {:induction false} SchemaKeysShown(p: UserProfile, showFloat: real -> string)
    ensures forall k | k in SchemaKeyIndexes :: OccursAt(FitnessPrompt(p, showFloat), Schema[k] + "\n", SchemaLineStart(p, showFloat, k))
  {
    forall k | k in SchemaKeyIndexes
      ensures OccursAt(FitnessPrompt(p, showFloat), Schema[k] + "\n", SchemaLineStart(p, showFloat, k))
    {
      SchemaLineShown(p, showFloat, k);
    }
  }

  /** Those lines come in that order: opening brace, meal plan, workout plan, general
      recommendations, progress tracking, closing brace. */
  lemma {:induction false} SchemaKeysInOrder(p: UserProfile, showFloat: real -> string)
    ensures forall n | 0 <= n < |SchemaKeyIndexes| - 1 ::
      SchemaLineStart(p, showFloat, SchemaKeyIndexes[n]) < SchemaLineStart(p, showFloat, SchemaKeyIndexes[n + 1])
  {
    var ls := PromptLines(p, showFloat);
    var base := |Opening| + 22 + |Requirements|;
    forall n | 0 <= n < |SchemaKeyIndexes| - 1
      ensures SchemaLineStart(p, showFloat, SchemaKeyIndexes[n]) < SchemaLineStart(p, showFloat, SchemaKeyIndexes[n + 1])
    {
      LinesOrdered(ls, base + SchemaKeyIndexes[n], base + SchemaKeyIndexes[n + 1]);
    }
  }

  /** The lines of the validation prompt before the plan text. */
  const ValidateHead: seq<string> := [
    "Validate and improve the following fitness plan. Ensure it's:",
    "1. Scientifically accurate",
    "2. Safe for the user",
    "3. Realistic and achievable",
    "4. Properly formatted as JSON",
    "",
    "Plan to validate:"
  ]

  /** The lines of the validation prompt after the plan text. */
  const ValidateTail: seq<string> := [
    "",
    "If there are any issues, provide the corrected version. If it's good, return it as-is."
  ]

  /** The text before the plan in the validation prompt; it ends in "Plan to validate:" and a newline. */
  function ValidateHeader(): string {
    "\n" + Unlines(ValidateHead)
  }

  lemma HeaderEndsWithMarker()
    ensures |ValidateHeader()| >= 18 && ValidateHeader()[|ValidateHeader()| - 18..] == "Plan to validate:\n"
  {
    var front := ValidateHead[..6];
    UnlinesAppend(front, ["Plan to validate:"]);
    assert ValidateHead == front + ["Plan to validate:"];
    assert Unlines(["Plan to validate:"]) == "Plan to validate:\n" by {
      assert ["Plan to validate:"][1..] == [];
    }
  }

  /** The text after the plan in the validation prompt. */
  function ValidateTrailer(): string {
    "\n" + Unlines(ValidateTail)
  }

  /** `validate_plan_prompt(plan_text)`: the plan text verbatim, on the line after
      "Plan to validate:". */
  function ValidatePrompt(planText: string): (r: string)
    ensures |ValidateHeader()| >= 18
    ensures OccursAt(r, "Plan to validate:\n" + planText + "\n", |ValidateHeader()| - 18)
  {
    HeaderEndsWithMarker();
    var h := ValidateHeader();
    var r := h + planText + ValidateTrailer();
    assert r[|h| - 18..|h| - 18 + |"Plan to validate:\n" + planText + "\n"|]
        == h[|h| - 18..] + planText + "\n";
    r
  }

  /** Reads the plan text back out of a validation prompt. */
  function PlanTextOf(v: string): string
    requires |ValidateHeader()| + |ValidateTrailer()| <= |v|
  {
    v[|ValidateHeader()|..|v| - |ValidateTrailer()|]
  }

  /** The plan text is embedded unaltered: it can be read back, so different plans give
      different validation prompts. */
  lemma PlanTextRecovered(t: string)
    ensures |ValidateHeader()| + |ValidateTrailer()| <= |ValidatePrompt(t)|
    ensures PlanTextOf(ValidatePrompt(t)) == t
  {
    var h := ValidateHeader();
    assert ValidatePrompt(t)[|h|..|ValidatePrompt(t)| - |ValidateTrailer()|] == t;
  }

  lemma ValidatePromptInjective(t: string, u: string)
    ensures ValidatePrompt(t) == ValidatePrompt(u) ==> t == u
  {
    PlanTextRecovered(t);
    PlanTextRecovered(u);
  }
}

=== FILE: providers.dfy ===
/** The LLM adapters and the lazily created, process-wide adapter instances behind the
    dependency getters. The vendor SDK call is the parameter `call`: `None` stands for any
    exception it raises; `Some(text)` is the reply text. */
module Providers {
  import opened Wrappers
  import opened Json
  import opened UserModel
  import Extraction

  /** The environment-derived settings the adapters read. */
  datatype Config = Config(
    googleApiKey: Option<string>,
    anthropicApiKey: Option<string>,
    maxTokens: int,
    temperature: real)

  const GeminiModelId := "gemini-pro"
  const AnthropicModelId := "claude-3-opus-20240229"
  const GoogleKeyMissing := "Google API key not found in environment variables"
  const AnthropicKeyMissing := "Anthropic API key not found in environment variables"

  /** A constructed adapter: which vendor, the key it was configured with, the model it calls. */
  datatype Adapter = Adapter(provider: Provider, apiKey: string, modelId: string)

  /** Python truthiness of an optional environment string. */
  predicate KeySet(k: Option<string>) {
    k.Some? && k.value != ""
  }

  /** `GeminiModel()`: refuses (the `ValueError`) exactly when the Google key is unset or empty. */
  function NewGemini(c: Config): (r: Result<Adapter, string>)
    ensures r.Success? <==> KeySet(c.googleApiKey)
    ensures r.Success? ==> r.value.provider == Gemini && r.value.apiKey == c.googleApiKey.value
                           && r.value.modelId == GeminiModelId
    ensures r.Failure? ==> r.error == GoogleKeyMissing
  {
    if !KeySet(c.googleApiKey) then Failure(GoogleKeyMissing)
    else Success(Adapter(Gemini, c.googleApiKey.value, GeminiModelId))
  }

  /** `AnthropicModel()`: refuses exactly when the Anthropic key is unset or empty. */
  function NewAnthropic(c: Config): (r: Result<Adapter, string>)
    ensures r.Success? <==> KeySet(c.anthropicApiKey)
    ensures r.Success? ==> r.value.provider == Anthropic && r.value.apiKey == c.anthropicApiKey.value
                           && r.value.modelId == AnthropicModelId
    ensures r.Failure? ==> r.error == AnthropicKeyMissing
  {
    if !KeySet(c.anthropicApiKey) then Failure(AnthropicKeyMissing)
    else Success(Adapter(Anthropic, c.anthropicApiKey.value, AnthropicModelId))
  }

  /** What an adapter hands the vendor SDK. */
  datatype CallRequest = CallRequest(modelId: string, prompt: string, temperature: real, maxTokens: int)

  /** `generate_plan(prompt)` of the Gemini and Anthropic adapters: one SDK call with the
      configured temperature and token limit; any failure of the call gives `None`, otherwise the
      reply text goes through the brace-slicing extractor. */
  function GeneratePlan(a: Adapter, c: Config, prompt: string,
                        call: CallRequest -> Option<string>,
                        parse: string -> Option<Json>): (r: Option<Json>)
    ensures call(CallRequest(a.modelId, prompt, c.temperature, c.maxTokens)).None? ==> r == None
    ensures forall reply :: call(CallRequest(a.modelId, prompt, c.temperature, c.maxTokens)) == Some(reply)
              ==> r == Extraction.ExtractJson(parse, reply)
  {
    var reply := call(CallRequest(a.modelId, prompt, c.temperature, c.maxTokens));
    if reply.None? then None else Extraction.ExtractJson(parse, reply.value)
  }

  /** A reply without a `{` or without a `}` is handed to `json.loads` whole. */
  lemma {:induction false} BracelessReplyParsedWhole(a: Adapter, c: Config, prompt: string,
                                                     call: CallRequest -> Option<string>,
                                                     parse: string -> Option<Json>, reply: string)
    requires call(CallRequest(a.modelId, prompt, c.temperature, c.maxTokens)) == Some(reply)
    requires '{' !in reply || '}' !in reply
    ensures GeneratePlan(a, c, prompt, call, parse) == parse(reply)
  {
  }

  /** An object the model wraps in prose (no `{` before it, no `}` after it) reaches the caller
      exactly as `json.loads` reads it. */
  lemma {:induction false} GenerateUnwrapsProse(a: Adapter, c: Config, prompt: string,
                                                call: CallRequest -> Option<string>,
                                                parse: string -> Option<Json>,
                                                prefix: string, s: string, suffix: string)
    requires call(CallRequest(a.modelId, prompt, c.temperature, c.maxTokens)) == Some(prefix + s + suffix)
    requires 2 <= |s| && s[0] == '{' && s[|s| - 1] == '}'
    requires '{' !in prefix && '}' !in suffix
    ensures GeneratePlan(a, c, prompt, call, parse) == parse(s)
  {
    Extraction.ExtractRoundTrip(parse, prefix, s, suffix);
  }

  /** The module-level instance variable of one provider: `None` until first successful use. */
  datatype Slot = Empty | Ready(adapter: Adapter)

  /** The `HTTPException` the routes raise. */
  datatype HttpError = HttpError(status: int, detail: string)

  function ProviderName(p: Provider): string {
    match p
    case Gemini => "Gemini"
    case Anthropic => "Anthropic"
    case Groq => "Groq"
  }

  function Unavailable(p: Provider): HttpError {
    HttpError(500, ProviderName(p) + " model not available")
  }

  /** `get_<provider>_model()`: reuse the stored instance; otherwise try to construct one
      (`construct` is the outcome of the constructor), store it on success, and answer 500
      "<Name> model not available" on failure, leaving the slot empty. */
  function GetModel(p: Provider, slot: Slot, construct: Result<Adapter, string>): (r: (Result<Adapter, HttpError>, Slot))
    ensures slot.Ready? ==> r.0 == Success(slot.adapter) && r.1 == slot
    ensures r.0.Failure? <==> slot.Empty? && construct.Failure?
    ensures r.0.Failure? ==> r.0.error == Unavailable(p) && r.1 == Empty
    ensures r.0.Success? ==> r.1 == Ready(r.0.value)
  {
    match slot
    case Ready(a) => (Success(a), slot)
    case Empty =>
      if construct.Failure? then (Failure(Unavailable(p)), Empty)
      else (Success(construct.value), Ready(construct.value))
  }

  /** A run of getter calls in one process, the i-th of which would see constructor outcome
      `outcomes[i]` if it ran the constructor. */
  function GetMany(p: Provider, slot: Slot, outcomes: seq<Result<Adapter, string>>): (rs: seq<Result<Adapter, HttpError>>)
    ensures |rs| == |outcomes|
    decreases |outcomes|
  {
    if |outcomes| == 0 then []
    else
      var step := GetModel(p, slot, outcomes[0]);
      [step.0] + GetMany(p, step.1, outcomes[1..])
  }

  /** Once an instance is stored, every later call returns it and the constructor is never
      consulted again. */
  lemma {:induction false} StoredInstanceReused(p: Provider, a: Adapter, outcomes: seq<Result<Adapter, string>>)
    ensures forall i :: 0 <= i < |outcomes| ==> GetMany(p, Ready(a), outcomes)[i] == Success(a)
  {
    if |outcomes| > 0 {
      StoredInstanceReused(p, a, outcomes[1..]);
    }
  }

  /** The getter is a memo: every call before the first successful construction fails with
      the provider's 500, and that first instance is returned by every call from then on. */
  lemma {:induction false} GetterMemoises(p: Provider, outcomes: seq<Result<Adapter, string>>, k: nat)
    requires k < |outcomes| && outcomes[k].Success?
    requires forall i :: 0 <= i < k ==> outcomes[i].Failure?
    ensures forall i :: 0 <= i < k ==> GetMany(p, Empty, outcomes)[i] == Failure(Unavailable(p))
    ensures forall i :: k <= i < |outcomes| ==> GetMany(p, Empty, outcomes)[i] == Success(outcomes[k].value)
  {
    var rs := GetMany(p, Empty, outcomes);
    if k == 0 {
      StoredInstanceReused(p, outcomes[0].value, outcomes[1..]);
      assert forall i :: 1 <= i < |outcomes| ==> rs[i] == GetMany(p, Ready(outcomes[0].value), outcomes[1..])[i - 1];
    } else {
      GetterMemoises(p, outcomes[1..], k - 1);
      assert forall i :: 1 <= i < |outcomes| ==> rs[i] == GetMany(p, Empty, outcomes[1..])[i - 1];
    }
  }

  /** With the configuration fixed for the life of the process, the Gemini getter either fails
      on every call (no key) or returns one and the same instance on every call. */
  lemma {:induction false} GeminiGetterStable(c: Config, outcomes: seq<Result<Adapter, string>>)
    requires forall i :: 0 <= i < |outcomes| ==> outcomes[i] == NewGemini(c)
    ensures (forall i :: 0 <= i < |outcomes| ==> GetMany(Gemini, Empty, outcomes)[i] == Failure(Unavailable(Gemini)))
        <==> (|outcomes| == 0 || !KeySet(c.googleApiKey))
    ensures KeySet(c.googleApiKey) ==> forall i :: 0 <= i < |outcomes| ==>
      GetMany(Gemini, Empty, outcomes)[i] == Success(Adapter(Gemini, c.googleApiKey.value, GeminiModelId))
  {
    if |outcomes| > 0 {
      if KeySet(c.googleApiKey) {
        assert outcomes[0] == Success(Adapter(Gemini, c.googleApiKey.value, GeminiModelId));
        GetterMemoises(Gemini, outcomes, 0);
        assert GetMany(Gemini, Empty, outcomes)[0] != Failure(Unavailable(Gemini));
      } else {
        AllFail(Gemini, outcomes);
      }
    }
  }

  /** Without a successful construction the slot never fills. */
  lemma {:induction false} AllFail(p: Provider, outcomes: seq<Result<Adapter, string>>)
    requires forall i :: 0 <= i < |outcomes| ==> outcomes[i].Failure?
    ensures forall i :: 0 <= i < |outcomes| ==> GetMany(p, Empty, outcomes)[i] == Failure(Unavailable(p))
  {
    if |outcomes| > 0 {
      AllFail(p, outcomes[1..]);
      var rs := GetMany(p, Empty, outcomes);
      assert forall i :: 1 <= i < |outcomes| ==> rs[i] == GetMany(p, Empty, outcomes[1..])[i - 1];
    }
  }
}

=== FILE: routes.dfy ===
/** The three plan endpoints: the dependency getter, the prompt, the provider call and the
    decision between a generated plan, the fallback plan and an HTTP 500. */
module Routes {
  import opened Wrappers
  import opened Json
  import Extraction
  import opened UserModel
  import opened PlanModel
  import opened Providers
  import opened Prompts
  import opened Fallback

  const FallbackMessage := "Plan generated with fallback data"

  /** The success message of each endpoint. */
  function SuccessMessage(p: Provider): string {
    match p
    case Gemini => "Plan generated successfully"
    case Anthropic => "Plan generated successfully with Anthropic"
    case Groq => "Plan generated successfully with Groq"
  }

  /** Why an endpoint answered 500. */
  datatype Cause =
    | ModelUnavailable(http: HttpError)    // the dependency getter could not construct the adapter
    | InvalidPlan(schema: SchemaError)     // `FitnessPlan(**result)` raised a validation error
    | NotAMapping                          // `FitnessPlan(**result)` on a truthy non-dict raised `TypeError`

  /** What the client receives. */
  datatype Reply = Answer(response: PlanResponse) | ServerError(status: int, cause: Cause)

  function Answered(message: string, plan: FitnessPlan): PlanResponse {
    NewPlanResponse("200").(message := Some(message), data := Some(plan))
  }

  /** The body of each `generate_plan_*` handler once the provider has answered with `result`,
      where `fallback` is what `create_fallback_response` gives for the request's profile: a falsy
      result (`None`, or a falsy JSON value such as `{}`) gets the fallback plan; a truthy result
      is handed to `FitnessPlan(**result)`, and whatever that raises becomes a 500. A truthy
      result that fails validation is never replaced by the fallback. */
  function Decide(endpoint: Provider, fallback: Result<FitnessPlan, SchemaError>, result: Option<Json>): (r: Reply)
    ensures r.ServerError? ==> r.status == 500
    ensures r.Answer? ==> r.response.status == "200" && r.response.data.Some? && r.response.error.None?
  {
    if !TruthyResult(result) then
      match fallback
      case Success(plan) => Answer(Answered(FallbackMessage, plan))
      case Failure(e) => ServerError(500, InvalidPlan(e))
    else if !result.value.JObj? then ServerError(500, NotAMapping)
    else
      match ValidatePlan(result.value.fields)
      case Success(plan) => Answer(Answered(SuccessMessage(endpoint), plan))
      case Failure(e) => ServerError(500, InvalidPlan(e))
  }

  /** A falsy result is answered with status "200", the fallback message and the fallback plan,
      whenever the fallback document validates (which it always does: `FallbackAccepted`). */
  lemma {:induction false} FalsyGetsFallback(endpoint: Provider, plan: FitnessPlan, result: Option<Json>)
    requires !TruthyResult(result)
    ensures Decide(endpoint, Success(plan), result) == Answer(Answered(FallbackMessage, plan))
  {
  }

  /** The fallback message is used exactly when the result was falsy: a generated plan and the
      fallback plan can always be told apart by the message. */
  lemma {:induction false} FallbackIffFalsy(endpoint: Provider, plan: FitnessPlan, result: Option<Json>)
    ensures Decide(endpoint, Success(plan), result).Answer?
            && Decide(endpoint, Success(plan), result).response.message == Some(FallbackMessage)
        <==> !TruthyResult(result)
  {
    assert SuccessMessage(endpoint) != FallbackMessage by {
      assert SuccessMessage(endpoint)[15] != FallbackMessage[15];
    }
  }

  /** A truthy result is answered only if it validates, with the endpoint's success message and
      the validated plan; otherwise the endpoint answers 500, never with the fallback. */
  lemma {:induction false} TruthyIsValidatedOr500(endpoint: Provider, fallback: Result<FitnessPlan, SchemaError>,
                                                  result: Option<Json>)
    requires TruthyResult(result)
    ensures !result.value.JObj? ==> Decide(endpoint, fallback, result) == ServerError(500, NotAMapping)
    ensures result.value.JObj? && ValidatePlan(result.value.fields).Failure? ==>
      Decide(endpoint, fallback, result) == ServerError(500, InvalidPlan(ValidatePlan(result.value.fields).error))
    ensures result.value.JObj? && ValidatePlan(result.value.fields).Success? ==>
      Decide(endpoint, fallback, result) == Answer(Answered(SuccessMessage(endpoint), ValidatePlan(result.value.fields).value))
  {
  }

  /** The empty mapping is falsy, so it gets the fallback rather than a validation error. */
  lemma {:induction false} EmptyObjectGetsFallback(endpoint: Provider, plan: FitnessPlan)
    ensures Decide(endpoint, Success(plan), Some(JObj(map[]))) == Answer(Answered(FallbackMessage, plan))
  {
    FalsyGetsFallback(endpoint, plan, Some(JObj(map[])));
  }

  /** A provider that answers with a document the schema accepts gets exactly the validated
      plan back with the endpoint's success message; with `PlanModel.PlanRoundTrip` this covers
      the encoding of every plan. */
  lemma {:induction false} ValidDocumentAnswered(endpoint: Provider, fallback: Result<FitnessPlan, SchemaError>,
                                                 doc: map<string, Json>, x: FitnessPlan)
    requires ValidatePlan(doc) == Success(x)
    ensures Decide(endpoint, fallback, Some(JObj(doc))) == Answer(Answered(SuccessMessage(endpoint), x))
  {
    assert "meal_plan" in doc;
    assert TruthyResult(Some(JObj(doc)));
  }

  // ---------------------------------------------------------------------------------------
  // One request, end to end.

  /** The world one request sees: the configuration, the outcome of constructing the Groq
      adapter and its answer to a prompt (its source is not part of this model), the vendor SDK
      call, `json.loads`, and Python's `str()` of a float and `str.lower()`. */
  datatype World = World(
    config: Config,
    groqConstruct: Result<Adapter, string>,
    groqGenerate: string -> Option<Json>,
    call: CallRequest -> Option<string>,
    parse: string -> Option<Json>,
    showFloat: real -> string,
    lower: string -> string)

  /** What the endpoint's constructor gives in this world. */
  function Construct(endpoint: Provider, w: World): Result<Adapter, string> {
    match endpoint
    case Gemini => NewGemini(w.config)
    case Anthropic => NewAnthropic(w.config)
    case Groq => w.groqConstruct
  }

  /** The provider's answer to a prompt. */
  function Generate(endpoint: Provider, a: Adapter, w: World, prompt: string): Option<Json> {
    if endpoint == Groq then w.groqGenerate(prompt) else GeneratePlan(a, w.config, prompt, w.call, w.parse)
  }

  /** The handler after request validation, given the prompt and the fallback plan the profile
      leads to: resolve the adapter through the endpoint's slot, ask the provider, and decide.
      Returns the reply and the slot afterwards. */
  function Handle(endpoint: Provider, slot: Slot, w: World, prompt: string,
                  fallback: Result<FitnessPlan, SchemaError>): (r: (Reply, Slot))
    ensures r.0.ServerError? && r.0.cause.ModelUnavailable? ==>
      slot.Empty? && Construct(endpoint, w).Failure? && r.0.cause.http == Unavailable(endpoint)
    ensures slot.Ready? ==> r.1 == slot
  {
    var got := GetModel(endpoint, slot, Construct(endpoint, w));
    match got.0
    case Failure(e) => (ServerError(e.status, ModelUnavailable(e)), got.1)
    case Success(a) => (Decide(endpoint, fallback, Generate(endpoint, a, w, prompt)), got.1)
  }

  /** `POST /generate-plan`, `/generate-plan-anthropic` or `/generate-plan-groq` with an already
      validated request: the prompt and the fallback are both built from the request's profile. */
  function Serve(endpoint: Provider, req: PlanRequest, slot: Slot, w: World): (Reply, Slot)
  {
    var p := req.userProfile;
    Handle(endpoint, slot, w, FitnessPrompt(p, w.showFloat), CreateFallback(p, w.lower))
  }

  /** The endpoint decides the provider; the request's `ai_provider` field is never read. */
  lemma AiProviderIgnored(endpoint: Provider, req: PlanRequest, other: Provider, slot: Slot, w: World)
    ensures Serve(endpoint, req, slot, w) == Serve(endpoint, req.(aiProvider := other), slot, w)
  {
  }

  /** With a Google key and no stored instance, the Gemini endpoint constructs and stores its
      adapter and decides on what the SDK call returns. */
  lemma GeminiConstructed(w: World, prompt: string, fallback: Result<FitnessPlan, SchemaError>)
    requires KeySet(w.config.googleApiKey)
    ensures var a := Adapter(Gemini, w.config.googleApiKey.value, GeminiModelId);
      Handle(Gemini, Empty, w, prompt, fallback)
        == (Decide(Gemini, fallback, GeneratePlan(a, w.config, prompt, w.call, w.parse)), Ready(a))
  {
  }

  /** Without a Google key and with no stored instance, the Gemini endpoint answers 500 with
      `Unavailable(Gemini)` ("Gemini model not available") and the slot stays empty. */
  lemma MissingKeyIs500(w: World, prompt: string, fallback: Result<FitnessPlan, SchemaError>)
    requires !KeySet(w.config.googleApiKey)
    ensures Handle(Gemini, Empty, w, prompt, fallback) == (ServerError(500, ModelUnavailable(Unavailable(Gemini))), Empty)
  {
  }

  /** When the SDK call fails, the Gemini endpoint still answers "200" with the fallback plan,
      and the constructed adapter is stored. */
  lemma {:induction false} CallFailureFallsBack(w: World, prompt: string, plan: FitnessPlan)
    requires KeySet(w.config.googleApiKey)
    requires w.call(CallRequest(GeminiModelId, prompt, w.config.temperature, w.config.maxTokens)).None?
    ensures Handle(Gemini, Empty, w, prompt, Success(plan))
         == (Answer(Answered(FallbackMessage, plan)), Ready(Adapter(Gemini, w.config.googleApiKey.value, GeminiModelId)))
  {
    GeminiConstructed(w, prompt, Success(plan));
  }

  /** End to end: when the SDK call fails, the Gemini endpoint answers with the fallback plan
      built from the request's profile (for four workout days its frequency reads "4 days per
      week": `Fallback.FallbackContent`). */
  lemma {:induction false} CallFailureServesFallback(req: PlanRequest, w: World)
    requires KeySet(w.config.googleApiKey)
    requires w.call(CallRequest(GeminiModelId, FitnessPrompt(req.userProfile, w.showFloat),
                                w.config.temperature, w.config.maxTokens)).None?
    ensures Serve(Gemini, req, Empty, w).0 == Answer(Answered(FallbackMessage, FallbackPlan(req.userProfile, w.lower)))
  {
    var p := req.userProfile;
    FallbackAccepted(p, w.lower);
    CallFailureFallsBack(w, FitnessPrompt(p, w.showFloat), FallbackPlan(p, w.lower));
  }

  /** A provider reply wrapping a braced serialisation that decodes to a non-empty document the
      schema rejects is a 500, not a fallback, even though the fallback would have been
      available. */
  lemma {:induction false} InvalidReplyIs500(w: World, prompt: string, plan: FitnessPlan,
                                             prefix: string, s: string, suffix: string, doc: map<string, Json>)
    requires Extraction.LoadsLike(w.parse)
    requires KeySet(w.config.googleApiKey)
    requires w.call(CallRequest(GeminiModelId, prompt, w.config.temperature, w.config.maxTokens)) == Some(prefix + s + suffix)
    requires 2 <= |s| && s[0] == '{' && s[|s| - 1] == '}'
    requires '{' !in prefix && '}' !in suffix
    requires w.parse(s) == Some(JObj(doc)) && |doc| > 0 && ValidatePlan(doc).Failure?
    ensures Handle(Gemini, Empty, w, prompt, Success(plan)).0 == ServerError(500, InvalidPlan(ValidatePlan(doc).error))
  {
    var a := Adapter(Gemini, w.config.googleApiKey.value, GeminiModelId);
    GeminiConstructed(w, prompt, Success(plan));
    GenerateUnwrapsProse(a, w.config, prompt, w.call, w.parse, prefix, s, suffix);
    TruthyIsValidatedOr500(Gemini, Success(plan), Some(JObj(doc)));
  }
}

=== FILE: strings.dfy ===
/** The handful of Python string operations the pipeline relies on: `find`, `rfind`, slicing,
    `str()` of an integer, f-string rendering of optional values, and joining lines into a block
    of text. */
module Strings {
  import opened Wrappers

  /** `t` occurs in `s` starting at index `i`. */
  predicate OccursAt(s: string, t: string, i: int) {
    0 <= i && i + |t| <= |s| && s[i..i + |t|] == t
  }

  /** `t` occurs somewhere in `s`: Python's `t in s`. */
  ghost predicate Contains(s: string, t: string) {
    exists i :: OccursAt(s, t, i)
  }

  /** The lowest index from `n` on holding `c`, or -1: the search `find` runs. */
  function FindFrom(s: string, c: char, n: nat): (r: int)
    requires n <= |s|
    ensures r == -1 || n <= r < |s|
    ensures r == -1 <==> forall i :: n <= i < |s| ==> s[i] != c
    ensures r >= 0 ==> s[r] == c && forall i :: n <= i < r ==> s[i] != c
    decreases |s| - n
  {
    if n == |s| then -1 else if s[n] == c then n else FindFrom(s, c, n + 1)
  }

  /** Python's `s.find(c)` for one character: the lowest index holding `c`, or -1. */
  function Find(s: string, c: char): (r: int)
    ensures -1 <= r < |s|
    ensures r == -1 <==> c !in s
    ensures r >= 0 ==> s[r] == c && forall i :: 0 <= i < r ==> s[i] != c
  {
    FindFrom(s, c, 0)
  }

  /** The highest index below `n` holding `c`, or -1: the search `rfind` runs. */
  function RFindBelow(s: string, c: char, n: nat): (r: int)
    requires n <= |s|
    ensures -1 <= r < n
    ensures r == -1 <==> forall i :: 0 <= i < n ==> s[i] != c
    ensures r >= 0 ==> s[r] == c && forall i :: r < i < n ==> s[i] != c
  {
    if n == 0 then -1 else if s[n - 1] == c then n - 1 else RFindBelow(s, c, n - 1)
  }

  /** Python's `s.rfind(c)` for one character: the highest index holding `c`, or -1. */
  function RFind(s: string, c: char): (r: int)
    ensures -1 <= r < |s|
    ensures r == -1 <==> c !in s
    ensures r >= 0 ==> s[r] == c && c !in s[r + 1..]
  {
    RFindBelow(s, c, |s|)
  }

  /** Python's `s[a:b]` for in-range, non-negative bounds: empty when `b <= a`. */
  function Slice(s: string, a: nat, b: nat): (r: string)
    requires a <= |s| && b <= |s|
    ensures |r| == if a <= b then b - a else 0
    ensures forall i :: 0 <= i < |r| ==> r[i] == s[a + i]
  {
    if a <= b then s[a..b] else ""
  }

  predicate IsDigit(c: char) {
    '0' <= c <= '9'
  }

  predicate AllDigits(s: string) {
    forall i :: 0 <= i < |s| ==> IsDigit(s[i])
  }

  function DigitChar(d: nat): (c: char)
    requires d < 10
    ensures IsDigit(c)
  {
    ('0' as int + d) as char
  }

  function DigitValue(c: char): nat
    requires IsDigit(c)
  {
    c as int - '0' as int
  }

  /** Python's `str(n)` for a non-negative integer: its decimal digits, most significant first,
      without leading zeros. */
  function NatToDecimal(n: nat): (r: string)
    ensures 0 < |r|
    ensures AllDigits(r)
    ensures |r| > 1 ==> r[0] != '0'
  {
    if n < 10 then [DigitChar(n)] else NatToDecimal(n / 10) + [DigitChar(n % 10)]
  }

  /** The number a string of decimal digits denotes (the reading direction of `NatToDecimal`). */
  function DecimalValue(s: string): nat
    requires AllDigits(s)
  {
    if |s| == 0 then 0 else DecimalValue(s[..|s| - 1]) * 10 + DigitValue(s[|s| - 1])
  }

  /** Reading back a rendered natural number gives the number. */
  lemma {:induction false} DecimalRoundTrip(n: nat)
    ensures DecimalValue(NatToDecimal(n)) == n
  {
    var r := NatToDecimal(n);
    if n >= 10 {
      DecimalRoundTrip(n / 10);
      assert r[..|r| - 1] == NatToDecimal(n / 10);
    }
  }

  /** Python's `str(i)` for any integer. */
  function IntToDecimal(i: int): (r: string)
    ensures 0 < |r|
    ensures i >= 0 ==> AllDigits(r)
    ensures i < 0 ==> r[0] == '-' && AllDigits(r[1..])
  {
    if i < 0 then "-" + NatToDecimal(-i) else NatToDecimal(i)
  }

  /** Reads back the output of `IntToDecimal`. */
  function ReadInt(s: string): int
    requires 0 < |s|
    requires AllDigits(s) || (s[0] == '-' && AllDigits(s[1..]))
  {
    if s[0] == '-' then 0 - (DecimalValue(s[1..]) as int) else DecimalValue(s)
  }

  /** Reading back a rendered integer gives the integer. */
  lemma IntRoundTrip(i: int)
    ensures ReadInt(IntToDecimal(i)) == i
  {
    DecimalRoundTrip(if i < 0 then -i else i);
  }

  /** Rendering an integer loses nothing: different integers render differently. */
  lemma IntToDecimalInjective(i: int, j: int)
    ensures IntToDecimal(i) == IntToDecimal(j) ==> i == j
  {
    IntRoundTrip(i);
    IntRoundTrip(j);
  }

  /** f-string rendering of an optional value: `None` prints as "None". */
  function ShowOpt<T>(x: Option<T>, show: T -> string): string {
    match x
    case None => "None"
    case Some(v) => show(v)
  }

  function ShowText(s: string): string { s }

  /** A rendered integer never reads "None": it starts with a digit or a minus sign. */
  lemma RenderedIntNotNone(n: int)
    ensures ShowOpt(Some(n), IntToDecimal) != "None"
  {
  }

  /** Rendering an optional integer loses nothing: an absent value and each number render
      differently. */
  lemma {:induction false} ShowOptIntInjective(x: Option<int>, y: Option<int>)
    ensures ShowOpt(x, IntToDecimal) == ShowOpt(y, IntToDecimal) ==> x == y
  {
    if x.Some? && y.Some? {
      IntToDecimalInjective(x.value, y.value);
    } else if x.Some? {
      RenderedIntNotNone(x.value);
    } else if y.Some? {
      RenderedIntNotNone(y.value);
    }
  }

  /** The lines of `ls`, each followed by a newline: the shape of a multi-line f-string. */
  function Unlines(ls: seq<string>): string {
    if |ls| == 0 then "" else ls[0] + "\n" + Unlines(ls[1..])
  }

  /** Where line `k` of `ls` begins inside `Unlines(ls)`. */
  function LineStart(ls: seq<string>, k: nat): nat
    requires k <= |ls|
  {
    if k == 0 then 0 else |ls[0]| + 1 + LineStart(ls[1..], k - 1)
  }

  /** Line `k` sits at `LineStart(ls, k)`, followed by a newline. */
  lemma {:induction false} LineAt(ls: seq<string>, k: nat)
    requires k < |ls|
    ensures OccursAt(Unlines(ls), ls[k] + "\n", LineStart(ls, k))
  {
    var u := Unlines(ls);
    if k == 0 {
      assert u == (ls[0] + "\n") + Unlines(ls[1..]);
    } else {
      LineAt(ls[1..], k - 1);
      var tail := Unlines(ls[1..]);
      var off := |ls[0]| + 1;
      assert u == (ls[0] + "\n") + tail;
      assert u[off..] == tail;
      var st := LineStart(ls[1..], k - 1);
      assert u[off + st..off + st + |ls[k] + "\n"|] == tail[st..st + |ls[k] + "\n"|];
    }
  }

  /** In a text that opens with a newline, line `k` sits one further along. */
  lemma LineShown(ls: seq<string>, k: nat)
    requires k < |ls|
    ensures OccursAt("\n" + Unlines(ls), ls[k] + "\n", 1 + LineStart(ls, k))
  {
    LineAt(ls, k);
    ShiftOccurrence("\n", Unlines(ls), ls[k] + "\n", LineStart(ls, k));
  }

  /** Lines appear in `Unlines(ls)` in their order in `ls`, without overlapping. */
  lemma {:induction false} LinesOrdered(ls: seq<string>, i: nat, j: nat)
    requires i < j <= |ls|
    ensures LineStart(ls, i) + |ls[i]| < LineStart(ls, j)
  {
    if i == 0 {
      if j > 1 {
        LineStartMonotone(ls[1..], 0, j - 1);
      }
    } else {
      LinesOrdered(ls[1..], i - 1, j - 1);
    }
  }

  lemma {:induction false} LineStartMonotone(ls: seq<string>, i: nat, j: nat)
    requires i <= j <= |ls|
    ensures LineStart(ls, i) <= LineStart(ls, j)
  {
    if i > 0 {
      LineStartMonotone(ls[1..], i - 1, j - 1);
    }
  }
  /** Joining two runs of lines is joining each and concatenating. */
  lemma {:induction false} UnlinesAppend(a: seq<string>, b: seq<string>)
    ensures Unlines(a + b) == Unlines(a) + Unlines(b)
  {
    if |a| == 0 {
      assert a + b == b;
    } else {
      UnlinesAppend(a[1..], b);
      assert (a + b)[1..] == a[1..] + b;
      calc {
        Unlines(a + b);
        a[0] + "\n" + Unlines(a[1..] + b);
        a[0] + "\n" + (Unlines(a[1..]) + Unlines(b));
        (a[0] + "\n" + Unlines(a[1..])) + Unlines(b);
      }
    }
  }

  /** An occurrence survives text added in front of it, shifted by the added length. */
  lemma ShiftOccurrence(c: string, s: string, t: string, i: int)
    requires OccursAt(s, t, i)
    ensures OccursAt(c + s, t, i + |c|)
  {
    assert (c + s)[i + |c|..i + |c| + |t|] == s[i..i + |t|];
  }
}

=== FILE: user_model.dfy ===
/** The request schema of `models/user_model.py`: the closed vocabularies of the profile, its
    numeric ranges and defaults, and the validator that builds a profile from a decoded body. */
module UserModel {
  import opened Wrappers
  import opened Json

  // ---------------------------------------------------------------------------------------
  // Closed vocabularies. Each `Parse` is the inverse of its `Label`: it accepts exactly the
  // listed literals.

  datatype Gender = Male | Female | Other

  function GenderLabel(g: Gender): string {
    match g
    case Male => "Male"
    case Female => "Female"
    case Other => "Other"
  }

  const GenderLiterals: set<string> := {"Male", "Female", "Other"}

  function ParseGender(s: string): (r: Option<Gender>)
    ensures r.Some? <==> s in GenderLiterals
    ensures r.Some? ==> GenderLabel(r.value) == s
    ensures r.None? ==> forall g :: GenderLabel(g) != s
  {
    if s == "Male" then Some(Male)
    else if s == "Female" then Some(Female)
    else if s == "Other" then Some(Other)
    else None
  }

  datatype ActivityLevel = Sedentary | LightlyActive | ModeratelyActive | VeryActive | ExtremelyActive

  function ActivityLabel(a: ActivityLevel): string {
    match a
    case Sedentary => "Sedentary"
    case LightlyActive => "Lightly Active"
    case ModeratelyActive => "Moderately Active"
    case VeryActive => "Very Active"
    case ExtremelyActive => "Extremely Active"
  }

  const ActivityLiterals: set<string> := {"Sedentary", "Lightly Active", "Moderately Active", "Very Active", "Extremely Active"}

  function ParseActivity(s: string): (r: Option<ActivityLevel>)
    ensures r.Some? <==> s in ActivityLiterals
    ensures r.Some? ==> ActivityLabel(r.value) == s
    ensures r.None? ==> forall a :: ActivityLabel(a) != s
  {
    if s == "Sedentary" then Some(Sedentary)
    else if s == "Lightly Active" then Some(LightlyActive)
    else if s == "Moderately Active" then Some(ModeratelyActive)
    else if s == "Very Active" then Some(VeryActive)
    else if s == "Extremely Active" then Some(ExtremelyActive)
    else None
  }

  datatype Goal = WeightLoss | WeightGain | MuscleBuilding | LeanBulk | Maintenance | AthleticPerformance

  function GoalLabel(g: Goal): string {
    match g
    case WeightLoss => "Weight Loss"
    case WeightGain => "Weight Gain"
    case MuscleBuilding => "Muscle Building"
    case LeanBulk => "Lean Bulk"
    case Maintenance => "Maintenance"
    case AthleticPerformance => "Athletic Performance"
  }

  const GoalLiterals: set<string> := {"Weight Loss", "Weight Gain", "Muscle Building", "Lean Bulk", "Maintenance", "Athletic Performance"}

  function ParseGoal(s: string): (r: Option<Goal>)
    ensures r.Some? <==> s in GoalLiterals
    ensures r.Some? ==> GoalLabel(r.value) == s
    ensures r.None? ==> forall g :: GoalLabel(g) != s
  {
    if s == "Weight Loss" then Some(WeightLoss)
    else if s == "Weight Gain" then Some(WeightGain)
    else if s == "Muscle Building" then Some(MuscleBuilding)
    else if s == "Lean Bulk" then Some(LeanBulk)
    else if s == "Maintenance" then Some(Maintenance)
    else if s == "Athletic Performance" then Some(AthleticPerformance)
    else None
  }

  datatype MealPreference = Vegetarian | NonVegetarian | Vegan | Pescatarian | Keto | Paleo

  function MealPreferenceLabel(m: MealPreference): string {
    match m
    case Vegetarian => "Vegetarian"
    case NonVegetarian => "Non-Vegetarian"
    case Vegan => "Vegan"
    case Pescatarian => "Pescatarian"
    case Keto => "Keto"
    case Paleo => "Paleo"
  }

  const MealPreferenceLiterals: set<string> := {"Vegetarian", "Non-Vegetarian", "Vegan", "Pescatarian", "Keto", "Paleo"}

  function ParseMealPreference(s: string): (r: Option<MealPreference>)
    ensures r.Some? <==> s in MealPreferenceLiterals
    ensures r.Some? ==> MealPreferenceLabel(r.value) == s
    ensures r.None? ==> forall m :: MealPreferenceLabel(m) != s
  {
    if s == "Vegetarian" then Some(Vegetarian)
    else if s == "Non-Vegetarian" then Some(NonVegetarian)
    else if s == "Vegan" then Some(Vegan)
    else if s == "Pescatarian" then Some(Pescatarian)
    else if s == "Keto" then Some(Keto)
    else if s == "Paleo" then Some(Paleo)
    else None
  }

  datatype MealType = HighProtein | Balanced | LowCarb | HighCarb | Mediterranean

  function MealTypeLabel(m: MealType): string {
    match m
    case HighProtein => "High Protein"
    case Balanced => "Balanced"
    case LowCarb => "Low Carb"
    case HighCarb => "High Carb"
    case Mediterranean => "Mediterranean"
  }

  const MealTypeLiterals: set<string> := {"High Protein", "Balanced", "Low Carb", "High Carb", "Mediterranean"}

  function ParseMealType(s: string): (r: Option<MealType>)
    ensures r.Some? <==> s in MealTypeLiterals
    ensures r.Some? ==> MealTypeLabel(r.value) == s
    ensures r.None? ==> forall m :: MealTypeLabel(m) != s
  {
    if s == "High Protein" then Some(HighProtein)
    else if s == "Balanced" then Some(Balanced)
    else if s == "Low Carb" then Some(LowCarb)
    else if s == "High Carb" then Some(HighCarb)
    else if s == "Mediterranean" then Some(Mediterranean)
    else None
  }

  datatype WorkoutLocation = Home | Gym | Outdoor | Mixed

  function LocationLabel(l: WorkoutLocation): string {
    match l
    case Home => "Home"
    case Gym => "Gym"
    case Outdoor => "Outdoor"
    case Mixed => "Mixed"
  }

  const LocationLiterals: set<string> := {"Home", "Gym", "Outdoor", "Mixed"}

  function ParseLocation(s: string): (r: Option<WorkoutLocation>)
    ensures r.Some? <==> s in LocationLiterals
    ensures r.Some? ==> LocationLabel(r.value) == s
    ensures r.None? ==> forall l :: LocationLabel(l) != s
  {
    if s == "Home" then Some(Home)
    else if s == "Gym" then Some(Gym)
    else if s == "Outdoor" then Some(Outdoor)
    else if s == "Mixed" then Some(Mixed)
    else None
  }

  datatype WorkoutSplit = FullBody | UpperLower | PushPullLegs | BodyPartSplit | Hiit | Functional

  function SplitLabel(w: WorkoutSplit): string {
    match w
    case FullBody => "Full Body"
    case UpperLower => "Upper/Lower"
    case PushPullLegs => "Push Pull Legs"
    case BodyPartSplit => "Body Part Split"
    case Hiit => "HIIT"
    case Functional => "Functional"
  }

  const SplitLiterals: set<string> := {"Full Body", "Upper/Lower", "Push Pull Legs", "Body Part Split", "HIIT", "Functional"}

  function ParseSplit(s: string): (r: Option<WorkoutSplit>)
    ensures r.Some? <==> s in SplitLiterals
    ensures r.Some? ==> SplitLabel(r.value) == s
    ensures r.None? ==> forall w :: SplitLabel(w) != s
  {
    if s == "Full Body" then Some(FullBody)
    else if s == "Upper/Lower" then Some(UpperLower)
    else if s == "Push Pull Legs" then Some(PushPullLegs)
    else if s == "Body Part Split" then Some(BodyPartSplit)
    else if s == "HIIT" then Some(Hiit)
    else if s == "Functional" then Some(Functional)
    else None
  }

  datatype WorkoutExperience = Beginner | Amateur | Intermediate | Advanced | Expert

  function ExperienceLabel(e: WorkoutExperience): string {
    match e
    case Beginner => "Beginner"
    case Amateur => "Amateur"
    case Intermediate => "Intermediate"
    case Advanced => "Advanced"
    case Expert => "Expert"
  }

  const ExperienceLiterals: set<string> := {"Beginner", "Amateur", "Intermediate", "Advanced", "Expert"}

  function ParseExperience(s: string): (r: Option<WorkoutExperience>)
    ensures r.Some? <==> s in ExperienceLiterals
    ensures r.Some? ==> ExperienceLabel(r.value) == s
    ensures r.None? ==> forall e :: ExperienceLabel(e) != s
  {
    if s == "Beginner" then Some(Beginner)
    else if s == "Amateur" then Some(Amateur)
    else if s == "Intermediate" then Some(Intermediate)
    else if s == "Advanced" then Some(Advanced)
    else if s == "Expert" then Some(Expert)
    else None
  }

  /** The `ai_provider` vocabulary of a plan request. */
  datatype Provider = Gemini | Anthropic | Groq

  function ProviderLabel(p: Provider): string {
    match p
    case Gemini => "gemini"
    case Anthropic => "anthropic"
    case Groq => "groq"
  }

  const ProviderLiterals: set<string> := {"gemini", "anthropic", "groq"}

  function ParseProvider(s: string): (r: Option<Provider>)
    ensures r.Some? <==> s in ProviderLiterals
    ensures r.Some? ==> ProviderLabel(r.value) == s
    ensures r.None? ==> forall p :: ProviderLabel(p) != s
  {
    if s == "gemini" then Some(Gemini)
    else if s == "anthropic" then Some(Anthropic)
    else if s == "groq" then Some(Groq)
    else None
  }

  // ---------------------------------------------------------------------------------------
  // The profile.

  /** A validated user profile. An optional field holds `None` only when the body sent `null`
      for it; an absent field takes its default instead. */
  datatype UserProfile = UserProfile(
    age: int,
    gender: Gender,
    height: real,
    weight: real,
    activityLevel: ActivityLevel,
    goal: Goal,
    goalWeight: Option<real>,
    mealPreference: MealPreference,
    mealType: MealType,
    allergies: Option<string>,
    medicalConditions: Option<string>,
    foodRestrictions: Option<string>,
    workoutDays: int,
    workoutLocation: WorkoutLocation,
    workoutSplit: WorkoutSplit,
    workoutExperience: WorkoutExperience,
    equipmentAvailable: Option<string>,
    timePerSession: Option<int>)

  const DefaultFreeText := "N/A"
  const DefaultEquipment := "Basic gym equipment"
  const DefaultSessionMinutes := 60

  /** The numeric ranges every accepted profile satisfies. */
  predicate ValidProfile(p: UserProfile) {
    && 13 <= p.age <= 100
    && 100.0 <= p.height <= 250.0
    && 30.0 <= p.weight <= 300.0
    && (p.goalWeight.Some? ==> 30.0 <= p.goalWeight.value <= 300.0)
    && 1 <= p.workoutDays <= 7
    && (p.timePerSession.Some? ==> 15 <= p.timePerSession.value <= 180)
  }

  datatype ErrorKind = FieldMissing | FieldWrongType | OutOfRange | NotAllowed

  /** A field-level validation error; the path names the offending field. */
  datatype ProfileError = ProfileError(path: seq<string>, kind: ErrorKind)

  // ---------------------------------------------------------------------------------------
  // Field readers.

  /** A number as a Python `float` field accepts it: an integer or a float. */
  function AsReal(j: Json): Option<real> {
    match j
    case JInt(i) => Some(i as real)
    case JFloat(r) => Some(r)
    case _ => None
  }

  /** A required `int` field with inclusive bounds. */
  function IntField(m: map<string, Json>, k: string, lo: int, hi: int): (r: Result<int, ProfileError>)
    ensures r.Success? <==> k in m && m[k].JInt? && lo <= m[k].i <= hi
    ensures r.Success? ==> r.value == m[k].i
    ensures k !in m ==> r == Failure(ProfileError([k], FieldMissing))
  {
    if k !in m then Failure(ProfileError([k], FieldMissing))
    else if !m[k].JInt? then Failure(ProfileError([k], FieldWrongType))
    else if !(lo <= m[k].i <= hi) then Failure(ProfileError([k], OutOfRange))
    else Success(m[k].i)
  }

  /** A required `float` field with inclusive bounds. */
  function RealField(m: map<string, Json>, k: string, lo: real, hi: real): (r: Result<real, ProfileError>)
    ensures r.Success? <==> k in m && AsReal(m[k]).Some? && lo <= AsReal(m[k]).value <= hi
    ensures r.Success? ==> r.value == AsReal(m[k]).value
    ensures k !in m ==> r == Failure(ProfileError([k], FieldMissing))
  {
    if k !in m then Failure(ProfileError([k], FieldMissing))
    else if AsReal(m[k]).None? then Failure(ProfileError([k], FieldWrongType))
    else if !(lo <= AsReal(m[k]).value <= hi) then Failure(ProfileError([k], OutOfRange))
    else Success(AsReal(m[k]).value)
  }

  /** An `Optional[float]` field with default `None` and inclusive bounds on a present number. */
  function OptRealField(m: map<string, Json>, k: string, lo: real, hi: real): (r: Result<Option<real>, ProfileError>)
    ensures k !in m || m[k].JNull? ==> r == Success(None)
    ensures k in m && !m[k].JNull? ==>
      (r.Success? <==> AsReal(m[k]).Some? && lo <= AsReal(m[k]).value <= hi)
    ensures k in m && !m[k].JNull? && r.Success? ==> r.value == Some(AsReal(m[k]).value)
  {
    if k !in m || m[k].JNull? then Success(None)
    else
      var v :- RealField(m, k, lo, hi);
      Success(Some(v))
  }

  /** An `Optional[int]` field with a default and inclusive bounds on a present number. */
  function OptIntField(m: map<string, Json>, k: string, lo: int, hi: int, default: int): (r: Result<Option<int>, ProfileError>)
    ensures k !in m ==> r == Success(Some(default))
    ensures k in m && m[k].JNull? ==> r == Success(None)
    ensures k in m && !m[k].JNull? ==> (r.Success? <==> m[k].JInt? && lo <= m[k].i <= hi)
    ensures k in m && !m[k].JNull? && r.Success? ==> r.value == Some(m[k].i)
  {
    if k !in m then Success(Some(default))
    else if m[k].JNull? then Success(None)
    else
      var v :- IntField(m, k, lo, hi);
      Success(Some(v))
  }

  /** An `Optional[str]` field with a default. */
  function OptTextField(m: map<string, Json>, k: string, default: string): (r: Result<Option<string>, ProfileError>)
    ensures k !in m ==> r == Success(Some(default))
    ensures k in m && m[k].JNull? ==> r == Success(None)
    ensures k in m && !m[k].JNull? ==> (r.Success? <==> m[k].JStr?)
    ensures k in m && m[k].JStr? ==> r == Success(Some(m[k].s))
  {
    if k !in m then Success(Some(default))
    else if m[k].JNull? then Success(None)
    else if m[k].JStr? then Success(Some(m[k].s))
    else Failure(ProfileError([k], FieldWrongType))
  }

  /** A required `Literal[...]` field; `parse` recognises the allowed literals. */
  function ChoiceField<T>(m: map<string, Json>, k: string, parse: string -> Option<T>): (r: Result<T, ProfileError>)
    ensures r.Success? <==> k in m && m[k].JStr? && parse(m[k].s).Some?
    ensures r.Success? ==> Some(r.value) == parse(m[k].s)
    ensures k !in m ==> r == Failure(ProfileError([k], FieldMissing))
  {
    if k !in m then Failure(ProfileError([k], FieldMissing))
    else if !m[k].JStr? then Failure(ProfileError([k], FieldWrongType))
    else match parse(m[k].s)
      case None => Failure(ProfileError([k], NotAllowed))
      case Some(v) => Success(v)
  }

  /** `UserProfile(**body)`: fields are checked in declaration order and the first error is
      reported. */
  function ValidateProfile(j: Json): (r: Result<UserProfile, ProfileError>)
    ensures r.Success? ==> ValidProfile(r.value)
    ensures r.Success? ==> j.JObj? && "age" in j.fields && j.fields["age"] == JInt(r.value.age)
    ensures r.Success? ==> j.JObj? && "workout_days" in j.fields && j.fields["workout_days"] == JInt(r.value.workoutDays)
  {
    if !j.JObj? then Failure(ProfileError([], FieldWrongType))
    else
      var m := j.fields;
      var age :- IntField(m, "age", 13, 100);
      var gender :- ChoiceField(m, "gender", ParseGender);
      var height :- RealField(m, "height", 100.0, 250.0);
      var weight :- RealField(m, "weight", 30.0, 300.0);
      var activity :- ChoiceField(m, "activity_level", ParseActivity);
      var goal :- ChoiceField(m, "goal", ParseGoal);
      var goalWeight :- OptRealField(m, "goal_weight", 30.0, 300.0);
      var mealPreference :- ChoiceField(m, "meal_preference", ParseMealPreference);
      var mealType :- ChoiceField(m, "meal_type", ParseMealType);
      var allergies :- OptTextField(m, "allergies", DefaultFreeText);
      var medical :- OptTextField(m, "medical_conditions", DefaultFreeText);
      var restrictions :- OptTextField(m, "food_restrictions", DefaultFreeText);
      var days :- IntField(m, "workout_days", 1, 7);
      var location :- ChoiceField(m, "workout_location", ParseLocation);
      var split :- ChoiceField(m, "workout_split", ParseSplit);
      var experience :- ChoiceField(m, "workout_experience", ParseExperience);
      var equipment :- OptTextField(m, "equipment_available", DefaultEquipment);
      var minutes :- OptIntField(m, "time_per_session", 15, 180, DefaultSessionMinutes);
      Success(UserProfile(age, gender, height, weight, activity, goal, goalWeight, mealPreference, mealType,
                          allergies, medical, restrictions, days, location, split, experience, equipment, minutes))
  }

  /** A plan request: the profile and the provider selector. */
  datatype PlanRequest = PlanRequest(userProfile: UserProfile, aiProvider: Provider)

  /** `PlanRequest(**body)`: `ai_provider` defaults to `"gemini"`. */
  function ValidateRequest(j: Json): (r: Result<PlanRequest, ProfileError>)
    ensures r.Success? ==> ValidProfile(r.value.userProfile)
    ensures r.Success? ==> (j.JObj? && "user_profile" in j.fields
      && ValidateProfile(j.fields["user_profile"]) == Success(r.value.userProfile))
    ensures r.Success? ==> ("ai_provider" !in j.fields ==> r.value.aiProvider == Gemini)
    ensures r.Success? && "ai_provider" in j.fields ==>
      j.fields["ai_provider"].JStr? && ProviderLabel(r.value.aiProvider) == j.fields["ai_provider"].s
  {
    if !j.JObj? then Failure(ProfileError([], FieldWrongType))
    else
      var m := j.fields;
      if "user_profile" !in m then Failure(ProfileError(["user_profile"], FieldMissing))
      else
        match ValidateProfile(m["user_profile"])
        case Failure(e) => Failure(ProfileError(["user_profile"] + e.path, e.kind))
        case Success(profile) =>
          if "ai_provider" !in m then Success(PlanRequest(profile, Gemini))
          else
            var provider :- ChoiceField(m, "ai_provider", ParseProvider);
            Success(PlanRequest(profile, provider))
  }

  // ---------------------------------------------------------------------------------------
  // Encoding and the properties of validation.

  function OptRealJson(x: Option<real>): Json {
    match x
    case None => JNull
    case Some(v) => JFloat(v)
  }

  function OptIntJson(x: Option<int>): Json {
    match x
    case None => JNull
    case Some(v) => JInt(v)
  }

  /** The body `m` holds every required field of `p`, each written as a request would send it. */
  predicate CarriesRequired(m: map<string, Json>, p: UserProfile) {
    && "age" in m && m["age"] == JInt(p.age)
    && "gender" in m && m["gender"] == JStr(GenderLabel(p.gender))
    && "height" in m && m["height"] == JFloat(p.height)
    && "weight" in m && m["weight"] == JFloat(p.weight)
    && "activity_level" in m && m["activity_level"] == JStr(ActivityLabel(p.activityLevel))
    && "goal" in m && m["goal"] == JStr(GoalLabel(p.goal))
    && "meal_preference" in m && m["meal_preference"] == JStr(MealPreferenceLabel(p.mealPreference))
    && "meal_type" in m && m["meal_type"] == JStr(MealTypeLabel(p.mealType))
    && "workout_days" in m && m["workout_days"] == JInt(p.workoutDays)
    && "workout_location" in m && m["workout_location"] == JStr(LocationLabel(p.workoutLocation))
    && "workout_split" in m && m["workout_split"] == JStr(SplitLabel(p.workoutSplit))
    && "workout_experience" in m && m["workout_experience"] == JStr(ExperienceLabel(p.workoutExperience))
  }

  /** The body `m` holds every field of `p`, an absent optional value written as `null`. */
  predicate Carries(m: map<string, Json>, p: UserProfile) {
    && CarriesRequired(m, p)
    && "goal_weight" in m && m["goal_weight"] == OptRealJson(p.goalWeight)
    && "allergies" in m && m["allergies"] == OptStrJson(p.allergies)
    && "medical_conditions" in m && m["medical_conditions"] == OptStrJson(p.medicalConditions)
    && "food_restrictions" in m && m["food_restrictions"] == OptStrJson(p.foodRestrictions)
    && "equipment_available" in m && m["equipment_available"] == OptStrJson(p.equipmentAvailable)
    && "time_per_session" in m && m["time_per_session"] == OptIntJson(p.timePerSession)
  }

  /** The optional fields a body may leave out. */
  const OptionalProfileKeys: set<string> :=
    {"goal_weight", "allergies", "medical_conditions", "food_restrictions", "equipment_available", "time_per_session"}

  /** Every label is read back as the value it labels. */
  lemma LabelsRoundTrip(p: UserProfile)
    ensures ParseGender(GenderLabel(p.gender)) == Some(p.gender)
    ensures ParseActivity(ActivityLabel(p.activityLevel)) == Some(p.activityLevel)
    ensures ParseGoal(GoalLabel(p.goal)) == Some(p.goal)
    ensures ParseMealPreference(MealPreferenceLabel(p.mealPreference)) == Some(p.mealPreference)
    ensures ParseMealType(MealTypeLabel(p.mealType)) == Some(p.mealType)
    ensures ParseLocation(LocationLabel(p.workoutLocation)) == Some(p.workoutLocation)
    ensures ParseSplit(SplitLabel(p.workoutSplit)) == Some(p.workoutSplit)
    ensures ParseExperience(ExperienceLabel(p.workoutExperience)) == Some(p.workoutExperience)
  {
  }

  /** `ValidateProfile` assembles the profile from its eighteen field results. */
  lemma AssembleProfile(m: map<string, Json>, p: UserProfile)
    requires IntField(m, "age", 13, 100) == Success(p.age)
    requires ChoiceField(m, "gender", ParseGender) == Success(p.gender)
    requires RealField(m, "height", 100.0, 250.0) == Success(p.height)
    requires RealField(m, "weight", 30.0, 300.0) == Success(p.weight)
    requires ChoiceField(m, "activity_level", ParseActivity) == Success(p.activityLevel)
    requires ChoiceField(m, "goal", ParseGoal) == Success(p.goal)
    requires OptRealField(m, "goal_weight", 30.0, 300.0) == Success(p.goalWeight)
    requires ChoiceField(m, "meal_preference", ParseMealPreference) == Success(p.mealPreference)
    requires ChoiceField(m, "meal_type", ParseMealType) == Success(p.mealType)
    requires OptTextField(m, "allergies", DefaultFreeText) == Success(p.allergies)
    requires OptTextField(m, "medical_conditions", DefaultFreeText) == Success(p.medicalConditions)
    requires OptTextField(m, "food_restrictions", DefaultFreeText) == Success(p.foodRestrictions)
    requires IntField(m, "workout_days", 1, 7) == Success(p.workoutDays)
    requires ChoiceField(m, "workout_location", ParseLocation) == Success(p.workoutLocation)
    requires ChoiceField(m, "workout_split", ParseSplit) == Success(p.workoutSplit)
    requires ChoiceField(m, "workout_experience", ParseExperience) == Success(p.workoutExperience)
    requires OptTextField(m, "equipment_available", DefaultEquipment) == Success(p.equipmentAvailable)
    requires OptIntField(m, "time_per_session", 15, 180, DefaultSessionMinutes) == Success(p.timePerSession)
    ensures ValidateProfile(JObj(m)) == Success(p)
  {
  }

  lemma RequiredFieldsRead(m: map<string, Json>, p: UserProfile)
    requires ValidProfile(p) && CarriesRequired(m, p)
    ensures IntField(m, "age", 13, 100) == Success(p.age)
    ensures ChoiceField(m, "gender", ParseGender) == Success(p.gender)
    ensures RealField(m, "height", 100.0, 250.0) == Success(p.height)
    ensures RealField(m, "weight", 30.0, 300.0) == Success(p.weight)
    ensures ChoiceField(m, "activity_level", ParseActivity) == Success(p.activityLevel)
    ensures ChoiceField(m, "goal", ParseGoal) == Success(p.goal)
    ensures ChoiceField(m, "meal_preference", ParseMealPreference) == Success(p.mealPreference)
    ensures ChoiceField(m, "meal_type", ParseMealType) == Success(p.mealType)
    ensures IntField(m, "workout_days", 1, 7) == Success(p.workoutDays)
    ensures ChoiceField(m, "workout_location", ParseLocation) == Success(p.workoutLocation)
    ensures ChoiceField(m, "workout_split", ParseSplit) == Success(p.workoutSplit)
    ensures ChoiceField(m, "workout_experience", ParseExperience) == Success(p.workoutExperience)
  {
    LabelsRoundTrip(p);
  }

  /** Every profile in range is accepted back from a body carrying its fields, unchanged;
      keys the schema does not name are ignored. */
  lemma {:induction false} ProfileRoundTrip(m: map<string, Json>, p: UserProfile)
    requires ValidProfile(p) && Carries(m, p)
    ensures ValidateProfile(JObj(m)) == Success(p)
  {
    RequiredFieldsRead(m, p);
    AssembleProfile(m, p);
  }

  /** A body that carries only the required fields gets the documented defaults: no target
      weight, "N/A" for the three free-text health fields, "Basic gym equipment", 60 minutes. */
  lemma {:induction false} ProfileDefaults(m: map<string, Json>, p: UserProfile)
    requires ValidProfile(p) && CarriesRequired(m, p)
    requires forall k :: k in OptionalProfileKeys ==> k !in m
    ensures ValidateProfile(JObj(m)) == Success(p.(
      goalWeight := None,
      allergies := Some("N/A"), medicalConditions := Some("N/A"), foodRestrictions := Some("N/A"),
      equipmentAvailable := Some("Basic gym equipment"), timePerSession := Some(60)))
  {
    var q := p.(
      goalWeight := None,
      allergies := Some("N/A"), medicalConditions := Some("N/A"), foodRestrictions := Some("N/A"),
      equipmentAvailable := Some("Basic gym equipment"), timePerSession := Some(60));
    RequiredFieldsRead(m, q);
    assert "goal_weight" in OptionalProfileKeys && "allergies" in OptionalProfileKeys;
    assert "medical_conditions" in OptionalProfileKeys && "food_restrictions" in OptionalProfileKeys;
    assert "equipment_available" in OptionalProfileKeys && "time_per_session" in OptionalProfileKeys;
    AssembleProfile(m, q);
  }

  // ---------------------------------------------------------------------------------------
  // Acceptance: the bodies the profile validator accepts, stated field by field.

  predicate IntIn(m: map<string, Json>, k: string, lo: int, hi: int) {
    k in m && m[k].JInt? && lo <= m[k].i <= hi
  }

  predicate NumberIn(m: map<string, Json>, k: string, lo: real, hi: real) {
    k in m && (m[k].JInt? || m[k].JFloat?)
    && lo <= (if m[k].JInt? then m[k].i as real else m[k].r) <= hi
  }

  predicate OneOf(m: map<string, Json>, k: string, literals: set<string>) {
    k in m && m[k].JStr? && m[k].s in literals
  }

  predicate Omitted(m: map<string, Json>, k: string) {
    k !in m || m[k].JNull?
  }

  /** The bodies `UserProfile(**body)` accepts: every required field present, in range or one of
      its literals, and every optional field left out, `null`, or well typed and in range. */
  predicate IsProfileDoc(j: Json) {
    && j.JObj?
    && IntIn(j.fields, "age", 13, 100)
    && OneOf(j.fields, "gender", GenderLiterals)
    && NumberIn(j.fields, "height", 100.0, 250.0)
    && NumberIn(j.fields, "weight", 30.0, 300.0)
    && OneOf(j.fields, "activity_level", ActivityLiterals)
    && OneOf(j.fields, "goal", GoalLiterals)
    && (Omitted(j.fields, "goal_weight") || NumberIn(j.fields, "goal_weight", 30.0, 300.0))
    && OneOf(j.fields, "meal_preference", MealPreferenceLiterals)
    && OneOf(j.fields, "meal_type", MealTypeLiterals)
    && (Omitted(j.fields, "allergies") || j.fields["allergies"].JStr?)
    && (Omitted(j.fields, "medical_conditions") || j.fields["medical_conditions"].JStr?)
    && (Omitted(j.fields, "food_restrictions") || j.fields["food_restrictions"].JStr?)
    && IntIn(j.fields, "workout_days", 1, 7)
    && OneOf(j.fields, "workout_location", LocationLiterals)
    && OneOf(j.fields, "workout_split", SplitLiterals)
    && OneOf(j.fields, "workout_experience", ExperienceLiterals)
    && (Omitted(j.fields, "equipment_available") || j.fields["equipment_available"].JStr?)
    && (Omitted(j.fields, "time_per_session") || IntIn(j.fields, "time_per_session", 15, 180))
  }

  /** The profile validator accepts exactly the bodies of `IsProfileDoc`: an out-of-range number,
      an unlisted literal, a wrongly typed or a missing required field is rejected. */
  lemma ProfileAcceptance(j: Json)
    ensures ValidateProfile(j).Success? <==> IsProfileDoc(j)
  {
    if j.JObj? {
      BodyFieldsAccepted(j.fields);
      HealthFieldsAccepted(j.fields);
      WorkoutFieldsAccepted(j.fields);
    }
  }

  /** The request validator accepts exactly a mapping whose `user_profile` is an accepted profile
      and whose `ai_provider` is absent or one of the three provider labels. */
  lemma {:induction false} RequestAcceptance(j: Json)
    ensures ValidateRequest(j).Success? <==>
      && j.JObj? && "user_profile" in j.fields && IsProfileDoc(j.fields["user_profile"])
      && ("ai_provider" !in j.fields || OneOf(j.fields, "ai_provider", ProviderLiterals))
  {
    if j.JObj? && "user_profile" in j.fields {
      ProfileAcceptance(j.fields["user_profile"]);
    }
  }

  /** A request carrying only an accepted profile is accepted with the default provider, Gemini. */
  lemma {:induction false} RequestDefaultsToGemini(profile: Json)
    requires IsProfileDoc(profile)
    ensures ValidateProfile(profile).Success?
    ensures ValidateRequest(JObj(map["user_profile" := profile]))
         == Success(PlanRequest(ValidateProfile(profile).value, Gemini))
  {
    ProfileAcceptance(profile);
  }

  lemma BodyFieldsAccepted(m: map<string, Json>)
    ensures IntField(m, "age", 13, 100).Success? <==> IntIn(m, "age", 13, 100)
    ensures ChoiceField(m, "gender", ParseGender).Success? <==> OneOf(m, "gender", GenderLiterals)
    ensures RealField(m, "height", 100.0, 250.0).Success? <==> NumberIn(m, "height", 100.0, 250.0)
    ensures RealField(m, "weight", 30.0, 300.0).Success? <==> NumberIn(m, "weight", 30.0, 300.0)
    ensures ChoiceField(m, "activity_level", ParseActivity).Success? <==> OneOf(m, "activity_level", ActivityLiterals)
    ensures ChoiceField(m, "goal", ParseGoal).Success? <==> OneOf(m, "goal", GoalLiterals)
    ensures OptRealField(m, "goal_weight", 30.0, 300.0).Success?
        <==> Omitted(m, "goal_weight") || NumberIn(m, "goal_weight", 30.0, 300.0)
  {
  }

  lemma HealthFieldsAccepted(m: map<string, Json>)
    ensures ChoiceField(m, "meal_preference", ParseMealPreference).Success? <==> OneOf(m, "meal_preference", MealPreferenceLiterals)
    ensures ChoiceField(m, "meal_type", ParseMealType).Success? <==> OneOf(m, "meal_type", MealTypeLiterals)
    ensures OptTextField(m, "allergies", DefaultFreeText).Success? <==> Omitted(m, "allergies") || m["allergies"].JStr?
    ensures OptTextField(m, "medical_conditions", DefaultFreeText).Success?
        <==> Omitted(m, "medical_conditions") || m["medical_conditions"].JStr?
    ensures OptTextField(m, "food_restrictions", DefaultFreeText).Success?
        <==> Omitted(m, "food_restrictions") || m["food_restrictions"].JStr?
  {
  }

  lemma WorkoutFieldsAccepted(m: map<string, Json>)
    ensures IntField(m, "workout_days", 1, 7).Success? <==> IntIn(m, "workout_days", 1, 7)
    ensures ChoiceField(m, "workout_location", ParseLocation).Success? <==> OneOf(m, "workout_location", LocationLiterals)
    ensures ChoiceField(m, "workout_split", ParseSplit).Success? <==> OneOf(m, "workout_split", SplitLiterals)
    ensures ChoiceField(m, "workout_experience", ParseExperience).Success? <==> OneOf(m, "workout_experience", ExperienceLiterals)
    ensures OptTextField(m, "equipment_available", DefaultEquipment).Success?
        <==> Omitted(m, "equipment_available") || m["equipment_available"].JStr?
    ensures OptIntField(m, "time_per_session", 15, 180, DefaultSessionMinutes).Success?
        <==> Omitted(m, "time_per_session") || IntIn(m, "time_per_session", 15, 180)
  {
  }
}

=== FILE: wrappers.dfy ===
/** Failure-compatible Option and Result datatypes shared by every module of the model. */
module Wrappers {

  /** An optional value: Python's `None` or a present value. */
  datatype Option<+T> = None | Some(value: T) {

    predicate IsFailure() {
      None?
    }

    function PropagateFailure<U>(): Option<U>
      requires None?
    {
      None
    }

    function Extract(): T
      requires Some?
    {
      value
    }
  }

  /** The outcome of an operation that either yields a value or raises an error. */
  datatype Result<+R, +E> = Success(value: R) | Failure(error: E) {

    predicate IsFailure() {
      Failure?
    }

    function PropagateFailure<U>(): Result<U, E>
      requires Failure?
    {
      Failure(this.error)
    }

    function Extract(): R
      requires Success?
    {
      value
    }
  }
}
